=== FILE: README.md ===
# Entity regeneration of the Jmoati GeneratorBundle, in Dafny

This project models how the bundle regenerates a Doctrine entity class. The
code lives in `Generator/EntityGenerator.php` and `Service/Uses.php`. The
pipeline has five stages:

- **Scanning.** The entity file's tokens are scanned for the properties and
  methods each class declares.
- **Filtering.** Mapped fields and associations that the class does not
  declare are dropped.
- **Stub synthesis.** Setter, getter, adder and remover stubs are
  synthesised for the methods the class lacks, plus a constructor that
  initialises the to-many collections.
- **Imports.** The file's `use` imports are read, the symbols the generated
  code names are added to them, and the import block is regenerated. The
  header's `use` lines are replaced by that block, and fully qualified
  names in the generated code are shortened to their aliases.
- **Writing.** The code is spliced in before the class's last `}`, and the
  file is written back after an optional `path~` backup.

Everything is a pure function over immutable data:

- **Tokens.** A `Scanner.Token` datatype stands in for what `token_get_all`
  returns.
- **Class index.** A map from class name to its declared properties and
  methods.
- **Import table.** An ordered sequence of `Uses.Use(alias, symbol)`
  entries stands in for the PHP array from alias to class name, whose
  insertion order matters.
- **Mapping metadata.** Datatypes for fields, associations and join
  columns.
- **Files.** A map from path to contents.

Modules, one per file:

- `Optional` and `Text` hold `Option` and the PHP string functions the code
  relies on. These are `trim`, `explode`/`implode`, `str_replace` and
  `strrpos`, plus PCRE `\s`.
- `Scanner` holds `parseTokensInEntityFile` and `hasProperty`.
- `Synth` holds the mapping filters, stub planning and rendering, the
  constructor and `generateEntityBody`.
- `Uses` holds `Service/Uses.php`.
- `EntityFile` holds `generateUpdatedEntityClass` and `writeEntityClass`.

Outside collaborators become parameters. Twig rendering, `Inflector`,
`Singularize` and Doctrine's type map are function-valued fields of
`Synth.Generator`. `uniqid()` is a function `uniq` from the capture's
position to the id it would return. Reflection and file reads are supplied
as their results:

- the set of existing method names;
- the header and remaining lines of the class file;
- the contents of the file system.

`generateUpdatedEntityClass` reads the current imports from the file of the
class itself (`getCurrentUses($metadata->getName())`). It rewrites the file
of the class's root entity (`rewriteHead($metadata->rootEntityName, …)`).
The two are different files for a subclass in an inheritance hierarchy,
and `writeEntityClass` writes the result to the subclass's path. The model
keeps the two files apart (`EntityFile.Environment.own` and `.root`). It
states the code as written (`GenerateUpdatedEntityClassAsWritten`, and
`WriteEntityClassAsWritten`, which writes it) and uses a corrected update
that rewrites the class's own file (`GenerateUpdatedEntityClass`, written
by `WriteEntityClass`); see "## Findings".

## Model

| member | source | states |
|---|---|---|
| Scanner.QualifiedName | Generator/EntityGenerator.php:202 | A class key splits back into the namespace and the class name: its last segment is the name and its namespace is the namespace read, when that namespace is truthy. A falsy namespace (`""` or `"0"`) is prefixed without a backslash. |
| Scanner.Step | Generator/EntityGenerator.php:187-232 | Whitespace, comment and doc-comment tokens leave the scanner state unchanged, and a step never removes a class from the index. |
| Scanner.NamespacePart | Generator/EntityGenerator.php:192-198 | While a namespace is being read, separators and identifiers extend it and `;` or `{` ends it. Outside a namespace nothing changes. |
| Scanner.ClassPart | Generator/EntityGenerator.php:200-205 | The token after `class` names the class. It becomes the current class and gets empty property and method lists. |
| Scanner.AddMethod | Generator/EntityGenerator.php:216-219 | A method name is appended to the current class's methods. Properties, namespace and flags are untouched. |
| Scanner.AddProperty | Generator/EntityGenerator.php:228 | A property name is appended to the current class's properties, and nothing else changes. |
| Scanner.StepNamespace | Generator/EntityGenerator.php:192-209 | `namespace` resets the namespace and starts reading it. Separators and identifiers are appended, and `;` or `{` stops the reading. |
| Scanner.StepClassName | Generator/EntityGenerator.php:200-212 | The identifier after `class` becomes the current class under its qualified key, with empty property and method lists. |
| Scanner.StepMethod | Generator/EntityGenerator.php:214-221 | After `function`, the identifier two tokens on, or three tokens on past a `&`, is appended to the current class's methods. |
| Scanner.StepProperty | Generator/EntityGenerator.php:223-229 | After `var`/`public`/`private`/`protected`, the token two positions on, less its first character, is appended to the properties unless that token is `function`. |
| Scanner.ParseEntityFile | Generator/EntityGenerator.php:223-228 | The scan fails (a `TypeError` from `mb_substr` on a missing token under strict types) exactly when a visibility token sits in one of the last two positions, and otherwise yields the scanned index. |
| Scanner.HasPropertyNeedsScannedClass | Generator/EntityGenerator.php:275-281 | `hasProperty` is false for every property of a class the scan never saw. |
| Scanner.StepSound | Generator/EntityGenerator.php:186-232 | One step keeps the invariant that every recorded method or property was already known or is declared somewhere in the token stream. |
| Scanner.ScanFromSound | Generator/EntityGenerator.php:186-233 | The whole loop keeps that invariant. |
| Scanner.ScanOnlyRecordsDeclarations | Generator/EntityGenerator.php:178-234 | Scanning a file keeps every class already indexed, and each method or property it records is declared in the file's tokens. |
| Synth.FilterFieldsInOrder | Generator/EntityGenerator.php:260-267 | The field filter distributes over concatenation and keeps a single mapping exactly when the class declares a property of its name, so surviving mappings keep their order and multiplicity. |
| Synth.FilterAssociationsInOrder | Generator/EntityGenerator.php:286-293 | The association filter likewise distributes over concatenation and keeps one mapping exactly when its field is a declared property, so `unset` in place keeps the others in order. |
| Synth.SchemaDriftIsDropped | Generator/EntityGenerator.php:241-293 | Every planned stub is for a declared property. A class absent from the index gets no stubs and an empty body. |
| Synth.IsAssociationNullable | Generator/EntityGenerator.php:532-551 | An association is nullable exactly when it is not an id and no join column has `nullable` explicitly false. |
| Synth.NoRequiredJoinColumn | Generator/EntityGenerator.php:538-548 | True exactly when no join column says `nullable: false`. |
| Synth.GetClassName | Generator/EntityGenerator.php:500-507 | The short name is what follows the last backslash. A name whose only backslash is at position 0, or with none, is kept whole. |
| Synth.GetTypeIdempotent | Generator/EntityGenerator.php:490-493 | `getType` yields its input or a PHP type of the alias table, and applying it twice is applying it once: no PHP type in the table is itself a key. |
| Synth.MethodTypeHintIdentity | Generator/EntityGenerator.php:373-383 | A type hint without `boolean`, `integer`, `uuid` or `guid` passes through unchanged. |
| Synth.MethodTypeHintRenames | Generator/EntityGenerator.php:373-383 | `boolean ` becomes `bool `, `integer ` (and so the `bigint` and `smallint` types) becomes `int `, `uuid ` and `guid ` become `string `, and an empty hint stays empty. |
| Synth.PrefixKeepsLines | Generator/EntityGenerator.php:515-525 | Prefixing keeps the number of lines, and every line of the result is the prefix followed by the original line. |
| Synth.FieldRequests | Generator/EntityGenerator.php:304-322 | Each field gets a getter last. A setter comes before it exactly when the field is not an id or the generator type is NONE. |
| Synth.AssociationRequests | Generator/EntityGenerator.php:324-368 | A to-one association gets `set` then `get`, both typed with the target entity; the setter defaults to `null` exactly when the association is nullable and the getter has no default. A to-many association gets `add` and `remove` typed with the target entity and no default, then `get` typed `ArrayCollection`. All are for the association's field. |
| Synth.FieldPlanNames | Generator/EntityGenerator.php:304-322 | Every field stub is for a field of the metadata. |
| Synth.AssociationPlanNames | Generator/EntityGenerator.php:324-368 | Every association stub is for an association of the metadata. |
| Synth.ExamplePlan | Generator/EntityGenerator.php:300-371 | For an auto-generated id `id`, a field `name` and a many-to-many `tags`, the plan is the `id` getter, the `name` setter and getter, then `add`, `remove` and `get` for `tags`. |
| Synth.FindAssociation | Generator/EntityGenerator.php:443-446 | The association found has the field's name, and none is found only when no association has that name. |
| Synth.StubVarsFor | Generator/EntityGenerator.php:415-441 | Without a (truthy) type hint both hints are empty. A DBAL type gives the renamed PHP type as method hint and variable type; a class gives `\Class ` as method hint. A collection mutator's variable is the camelized last segment of its hint, any other the camelized field name. The method and field names, short entity name, four spaces, ` = default` and owning-side callback are carried as given. |
| Synth.InverseSideCallbacks | Generator/EntityGenerator.php:443-462 | On the inverse side, a many-to-many `add`/`remove` calls `add<Entity>($this)`/`remove<Entity>($this)`, and any other kind calls `set<Entity>($this)`/`set<Entity>(null)`. |
| Synth.NoCallbackOffInverseMutators | Generator/EntityGenerator.php:434-462 | On the owning side, and for getters and setters, the callback text is empty. |
| Synth.GenerateEntityStubMethod | Generator/EntityGenerator.php:403-467 | No stub is produced exactly when the class already has a method of the computed name. Otherwise the stub has as many lines as the template output, each one indented by the generator's spaces. |
| Synth.MissingRequests | Generator/EntityGenerator.php:409-411 | A planned stub is kept exactly when its method is missing from the class. |
| Synth.StubFragmentsAreMissingStubs | Generator/EntityGenerator.php:300-371 | The fragments are the rendered stubs of exactly the missing methods, in plan order, so an existing method never gets a second definition. |
| Synth.NothingMissingFromEmptyClass | Generator/EntityGenerator.php:409-411 | A class without methods is missing every planned stub. |
| Synth.ExampleFragments | Generator/EntityGenerator.php:300-371 | A class without methods gets all six stubs of the example plan, fragment `k` being the rendered `k`-th planned stub. |
| Synth.ToManyFieldsInOrder | Generator/EntityGenerator.php:564-570 | The collection fields distribute over concatenation, one field name per to-many mapping, so they come in mapping order. |
| Synth.ToManyFieldsEmpty | Generator/EntityGenerator.php:558-582 | There are no collection fields exactly when no association is to-many. |
| Synth.GenerateEntityConstructor | Generator/EntityGenerator.php:558-582 | The constructor is empty when `__construct` exists or nothing is to-many. Otherwise it renders one collection initialisation for each entry of the to-many field list, in that list's order. |
| Synth.ExampleConstructor | Generator/EntityGenerator.php:558-582 | The example class's constructor initialises its single collection. |
| Synth.RegenerationAddsNothing | Generator/EntityGenerator.php:241-255 | When every planned method and the constructor already exist, the generated body is empty. |
| Uses.Lookup | Service/Uses.php:28 | An alias is absent from the table exactly when no entry binds it. |
| Uses.LookupFindsFirst | Service/Uses.php:28 | For a bound alias, the symbol found is that of the first entry binding it. |
| Uses.Put | Service/Uses.php:53 | Assigning `$uses[$key]` binds the key to the symbol and leaves the other keys' bindings alone; a new key is appended at the end, and aliases stay unique. |
| Uses.PutInPlace | Service/Uses.php:53 | Rebinding an existing key replaces its first entry in place and leaves every other entry where it was. |
| Uses.PutAll | Service/Uses.php:20-29 | Sequential assignment keeps aliases unique. |
| Uses.LaterEntryWins | Service/Uses.php:20-29 | After assigning a list of entries, an alias is bound to the symbol of its last entry, and aliases no entry names keep their old binding. |
| Uses.CurrentUsesLastWins | Service/Uses.php:12-33 | The imports read from a header have unique aliases, and each alias maps to the symbol of the last `use` statement naming it. |
| Uses.UseCaptures | Service/Uses.php:19 | No captured `use` text contains `;`. |
| Uses.UseCapturesDelimited | Service/Uses.php:19 | Every capture stands between `use ` and `;` in the header. |
| Uses.FindAs | Service/Uses.php:21 | Finds the first case-insensitive ` AS ` from a position on, or reports that there is none. |
| Uses.ParseImportText | Service/Uses.php:21-28 | Parsing `S` or `S as A` gives back the entry it was printed from: the alias is the text after ` AS `, or the last segment of `S`, both trimmed. |
| Uses.ParseImportTexts | Service/Uses.php:20-29 | Parsing the printed entries of a table gives back the table, entry by entry. |
| Uses.UseCapturesCons | Service/Uses.php:19 | The first capture of `use X;…` is `X`, followed by the captures of the rest. |
| Uses.SymbolRun | Service/Uses.php:43 | The run after a backslash stops at the first whitespace, `|`, `^`, `(` or `;`. |
| Uses.SymbolCaptures | Service/Uses.php:43 | No captured symbol contains whitespace, `|`, `^`, `(` or `;`. |
| Uses.SymbolCapturesDelimited | Service/Uses.php:43 | Every captured symbol follows a backslash and is followed by whitespace, `|`, `(` or `;`. |
| Uses.SymbolCapturesOccur | Service/Uses.php:43 | Every captured symbol occurs in the generated code. |
| Uses.NewUsesExtendTable | Service/Uses.php:41-59 | With fresh ids, the new table starts with the old one unchanged and binds every captured symbol. Each added entry is for a captured symbol not bound before it, under its last segment, or that segment plus `_` and the id when the segment was taken. |
| Uses.ChosenAliasFresh | Service/Uses.php:46-53 | The alias chosen for a new symbol is not yet bound, so the assignment never overwrites an existing import. |
| Uses.NewUsesKeepAliasesUnique | Service/Uses.php:41-59 | Adding new symbols keeps aliases unique. |
| Uses.NoNewUsesForKnownSymbols | Service/Uses.php:45 | When every captured symbol is already imported, the table is unchanged. |
| Uses.ImportLineReadsBack | Service/Uses.php:80-88 | An import line, printed as `use S;` or `use S as A;`, is read back by `getCurrentUses` as exactly the entry it was printed from. |
| Uses.ImportedUsesMembers | Service/Uses.php:71-78 | An entry is printed exactly when it is in the table and its namespace differs from the current one. |
| Uses.ImportedUsesInOrder | Service/Uses.php:71-78 | The printed selection distributes over concatenation, so entries are printed in table order. |
| Uses.ImportedUsesSingle | Service/Uses.php:76-78 | A single entry is printed exactly when its namespace differs from the current one. |
| Uses.ImportedUsesUnique | Service/Uses.php:71-78 | The printed entries keep unique aliases drawn from the table. |
| Uses.UsesBlockRoundTrip | Service/Uses.php:12-92 | Reading back a generated block gives exactly the entries outside the current namespace, when every symbol and alias is free of whitespace and `;` (so none holds ` AS `). |
| Uses.HeaderReadsBack | Service/Uses.php:12-33 | A header of non-`use` lines around an import block reads back as the table the block was printed from. |
| Uses.RewriteShape | Service/Uses.php:106-120 | The first header line containing `use ` becomes the block, the header lines before it are kept, and later `use` lines are deleted. |
| Uses.RewriteWithoutUseLines | Service/Uses.php:106-115 | A header without `use ` lines is kept as it is, so the block is not inserted. |
| Uses.RewriteAfterBlock | Service/Uses.php:108-113 | Once the block is placed, every later `use` line is dropped and the other lines are kept in order. |
| Uses.RewriteIdempotent | Service/Uses.php:106-115 | Rewriting an already rewritten header with the same block changes nothing. |
| Uses.RewriteHeadKeepsBlock | Service/Uses.php:100-121 | Rewriting a header whose only `use` lines are an import block, with that same block, gives back the file's text unchanged. |
| Uses.NonUseLinesInOrder | Service/Uses.php:106-115 | Dropping `use` lines distributes over concatenation and keeps a single line exactly when it has no `use `. |
| Uses.NonUseLinesKeepsOthers | Service/Uses.php:106-115 | Every line without `use ` survives and nothing is added. |
| Uses.AliasingWithoutReferences | Service/Uses.php:129-143 | A body that names none of the imported symbols is unchanged. |
| Uses.AliasingUseAppend | Service/Uses.php:134-142 | The replacement pairs are applied in table order: aliasing with a table `t1 + t2` is aliasing with `t1`, then with `t2`. |
| Uses.AliasingRewritesReference | Service/Uses.php:134-142 | Under a one-entry table `S => A`, a body made of a text without a backslash, then `\S`, then a tail becomes the text, `A` and the tail, provided `S` does not occur in that result. |
| Uses.AliasingExample | Service/Uses.php:129-143 | Under the single import `Collection => Vendor\Collections\Collection`, `new \Vendor\Collections\Collection()` becomes `new Collection()`. |
| EntityFile.Splice | Generator/EntityGenerator.php:133-135 | With no `}` in the code there is no result. Otherwise the result is the code before its last `}`, then the body, a newline only for a non-empty body, and `}` with a newline. |
| EntityFile.SpliceClosesLast | Generator/EntityGenerator.php:133-135 | The closing brace written is the last `}` of the result, whatever braces the body holds. |
| EntityFile.SpliceEmptyIdempotent | Generator/EntityGenerator.php:133-135 | Splicing an empty body into a spliced file gives the same file. |
| EntityFile.GenerateUpdatedEntityClassAsWritten | Generator/EntityGenerator.php:124-136 | As written, the text rewritten and returned is the root entity's file: there is no result exactly when it has no `}`; otherwise the result is it up to its last `}`, the aliased body, and `}` with a newline. For a class that is its own root it agrees with the corrected update. |
| EntityFile.GenerateUpdatedEntityClass | Generator/EntityGenerator.php:124-136 | The same for the class's own file: no result exactly when the rewritten file has no `}`, otherwise that file up to its last `}`, the aliased body, and a closing `}` with a newline. |
| EntityFile.NothingToAdd | Generator/EntityGenerator.php:124-136 | With every planned method and a constructor, the body is empty, the import table is the one the class's own file holds, and the aliased body is empty. |
| EntityFile.PlainFileComesBack | Generator/EntityGenerator.php:124-136 | With nothing to add, a file without `use` lines that ends in `}` comes back as the same text with a final newline. |
| EntityFile.OwnTextKept | Generator/EntityGenerator.php:130-131 | With nothing to add, rewriting a header whose `use` lines are an import block as the generator prints it gives back the file's own lines joined by newlines. |
| EntityFile.RegenerationKeepsClass | Generator/EntityGenerator.php:124-136 | A class with every planned method and a constructor, whose header's only `use` lines are an import block as the generator prints it (clean names, unique aliases, none in the class's namespace) and whose text ends in `}`, comes back as the same text plus a final newline. |
| EntityFile.RootFileReplacesSubclass | Generator/EntityGenerator.php:131 | For a subclass `Child` of `Base` with nothing to generate, the update as written returns the text of `Base`'s file. |
| EntityFile.OwnFileKeepsSubclass | Generator/EntityGenerator.php:124-136 | The corrected update returns the subclass's own text. |
| EntityFile.Backup | Generator/EntityGenerator.php:109-114 | With backups on, `path~` receives the old contents, or the write stops when the copy fails. No other file changes. |
| EntityFile.BackupAndWrite | Generator/EntityGenerator.php:109-116 | Once the scan has succeeded: a failed backup exactly when backups are on and the copy fails; otherwise generation fails exactly when the update has no result, and the write fails exactly when there is an update but `file_put_contents` fails, both leaving `path` as it was. A written `path` holds the update; with backups on `path~` holds the old contents; every other file keeps its presence and contents. |
| EntityFile.WriteEntityClass | Generator/EntityGenerator.php:98-117 | With the corrected update: a missing file is reported exactly when `path` is absent, and a scan failure exactly when the tokens end in a truncated declaration; otherwise the outcome is the backup and write of the corrected update of the scanned index. |
| EntityFile.WriteEntityClassAsWritten | Generator/EntityGenerator.php:98-117 | The same steps writing the update as written, the root entity's rewritten file; for a class that is its own root it agrees with `WriteEntityClass`. |
| EntityFile.WriteReplacesSubclass | Generator/EntityGenerator.php:116 | As written, writing the subclass `Child` puts `Base`'s text at `Child.php` and changes nothing else. |
| EntityFile.WriteKeepsSubclass | Generator/EntityGenerator.php:116 | The corrected write puts `Child`'s own text back at `Child.php`. |
| EntityFile.WriteKeepsBackup | Generator/EntityGenerator.php:107-116 | After a write with backups on, `path~` holds the old contents and `path` ends with the closing brace and a newline. |
| Text.JoinSplit | Service/Uses.php:24-25 | Joining what `explode` returns with the same separator gives back the string. |
| Text.SplitJoin | Service/Uses.php:73-74 | Splitting a join of separator-free parts gives back the parts. |
| Text.NameDecomposition | Service/Uses.php:73-82 | A qualified name is its namespace, a backslash and its last segment, and the last segment holds no backslash. |
| Text.TrimFixesClean | Service/Uses.php:28 | `trim` leaves a string with no whitespace at either end unchanged, and its result has none at either end. |
| Text.LastIndexOf | Generator/EntityGenerator.php:133 | `strrpos` finds the last occurrence of a character, or reports that there is none. |
| Text.ReplaceAbsent | Service/Uses.php:142 | `str_replace` leaves a string without the pattern unchanged. |

## Left out

- `Command/GenerateEntitiesCommand.php`, `Service/Symfony.php` and `Generator/AbstractGenerator.php` are not part of this model. They wire the command line, find bundles and entities through the kernel, and render Twig templates. Rendering is the `Synth.Templates` functions.
- Reflection (`ReflectionClass::hasMethod`, `getFileName`, `getStartLine`, `getEndLine`) and the file reads are replaced by inputs. These are the set of existing methods, and the header and remaining lines of the class file and of the root entity's file. The `array_slice` offsets are not modelled. This includes the case of a class starting on line 1, where the source passes a negative length. It also includes `rewriteHead` taking `getEndLine()` lines from the start line, which only matters when text follows the class.
- `token_get_all` is replaced by its output, a sequence of `Scanner.Token`. `Inflector::classify`/`camelize`, `Singularize::word` and `Type::getTypesMap` are opaque functions.
- `uniqid()` is the function `uniq` from capture position to id. The no-overwrite property assumes ids that contain no `_`, differ from each other, and do not follow `_` anywhere in the generated code. The source relies on `uniqid` for this.
- `Synth.HasMethod` lowercases ASCII letters only; PHP's case-insensitive method lookup is not modelled beyond that.
- Scanner.Step: a `function` token whose look-ahead runs past the end of the stream records nothing, as in the source, where the missing element compares unequal. A visibility token there makes the source throw; `Scanner.ParseEntityFile` and `EntityFile.Outcome.ScanFailed` model that failure, and `Scanner.Step` itself records nothing.
- Scanner.Step: methods and properties seen before any class are not recorded. The source files them under the integer key `0`, which `hasProperty` never consults for a class name.
- Uses.GetNewUses: `in_array` is compared as plain string equality, and so are `generateUsesBlock`'s `$namespace == $current_namespace` (`Service/Uses.php:75`) and `end($class) == $aliase` (`Service/Uses.php:81`). PHP's loose comparison of numeric strings is not modelled; namespaces and aliases are not numeric strings.
- The append to the class's method list at `Generator/EntityGenerator.php:413` is not modelled. `hasMethod` asks reflection and never reads that list, so the append has no effect on the output.
- `writeEntityClass`'s path building from the output directory and `App\` prefix, and `DIRECTORY_SEPARATOR`, are not modelled. The path is an input and the backup path is `path~`.
- `generate`, `setNumSpaces`, `setAnnotationPrefix`, `setBackupExisting` and the constructor are plumbing. Their values are fields of `Synth.Generator` and parameters of `EntityFile.WriteEntityClass`.
- EntityFile.BackupAndWrite: a failed `file_put_contents` (`writeOk` false, `Outcome.WriteFailed`) leaves `path` with its old contents; a write that fails part-way and leaves a truncated file is not modelled. The source ignores the `false` it returns, so the method ends normally either way.
- Multibyte string functions (`mb_substr`, `mb_strrpos`, `mb_strlen`) work on characters, as `string` does here; encoding is not modelled.

## Findings

| source | as written | input that shows it | evidently intended | confidence | as-written member | corrected member |
|---|---|---|---|---|---|---|
| Generator/EntityGenerator.php:131 | `rewriteHead` is called with the root entity's name, so the text returned, and written to the subclass's path, is the root entity's file | a subclass `Child extends Base` whose own file and `Base`'s file both end in `}` and hold no `use` line, with nothing to generate: the result is `Base`'s text (`EntityFile.RootFileReplacesSubclass`), and the write puts it at `Child.php` (`EntityFile.WriteReplacesSubclass`); the corrected update gives `Child`'s text (`EntityFile.OwnFileKeepsSubclass`, `EntityFile.WriteKeepsSubclass`) | rewrite and return the file of the class being generated, whose imports were read | medium, not executed | EntityFile.GenerateUpdatedEntityClassAsWritten | EntityFile.GenerateUpdatedEntityClass |

=== FILE: entity_file.dfy ===
/** `generateUpdatedEntityClass` and `writeEntityClass` of
    `Generator/EntityGenerator.php`: the class file is re-read with its
    imports brought up to date, the generated body is spliced in before the
    class's closing brace, and the file is written back after an optional
    backup. */
module EntityFile {

  import opened Optional
  import opened Text
  import Scanner
  import Synth
  import Uses

  // ----- the splice -----

  /** The code up to its last `}`, then the body, a newline when the body is
      not empty, and `}` with a final newline. Without any `}` the source
      passes `false` to `mb_substr` under strict types, which throws: that
      is `None` here. */
  function Splice(code: string, body: string): (r: Option<string>)
    ensures r.None? <==> '}' !in code
    ensures r.Some? ==> EndsWith(r.value, "}\n")
    ensures r.Some? ==>
              var last := LastIndexOf(code, '}').value;
              && StartsWith(r.value, code[..last] + body)
              && |r.value| == last + |body| + (if |body| > 0 then 1 else 0) + 2
    ensures r.Some? && |body| > 0 ==> r.value[LastIndexOf(code, '}').value + |body|] == '\n'
  {
    match LastIndexOf(code, '}')
    case None => None
    case Some(last) =>
      var r := code[..last] + body + (if |body| > 0 then "\n" else "") + "}\n";
      assert r[..last + |body|] == code[..last] + body;
      assert r[|r| - 2..] == "}\n";
      Some(r)
  }

  /** The closing brace the splice writes is the last `}` of the result,
      whatever braces the body holds. */
  lemma SpliceClosesLast(code: string, body: string)
    requires '}' in code
    ensures LastIndexOf(Splice(code, body).value, '}') == Some(|Splice(code, body).value| - 2)
  {
    var r := Splice(code, body).value;
    assert r[|r| - 2..] == "}\n";
    assert r[|r| - 2] == '}';
    assert r[|r| - 1..] == "\n";
  }

  /** Splicing an empty body into a spliced file changes nothing. */
  lemma SpliceEmptyIdempotent(code: string, body: string)
    requires '}' in code
    ensures Splice(Splice(code, body).value, "") == Splice(code, body)
  {
    var r := Splice(code, body).value;
    SpliceClosesLast(code, body);
    assert r[..|r| - 2] + "" + "" + "}\n" == r by {
      assert r[|r| - 2..] == "}\n";
      assert r[..|r| - 2] + r[|r| - 2..] == r;
    }
  }

  /** A class whose last character is its closing brace comes back with a
      final newline when the body is empty. */
  lemma SpliceEmptyBody(code: string)
    requires |code| > 0 && code[|code| - 1] == '}'
    ensures Splice(code, "") == Some(code + "\n")
  {
    assert LastIndexOf(code, '}') == Some(|code| - 1);
    assert code[..|code| - 1] + "" + "" + "}\n" == code + "\n" by {
      assert code == code[..|code| - 1] + [code[|code| - 1]];
    }
  }

  // ----- the pipeline -----

  /** A class file as reflection sees it: the lines before the class's
      first line, and the lines from there on that the source keeps. */
  datatype ClassFile = ClassFile(head: seq<string>, rest: seq<string>)

  /** What `getCurrentUses` reads: the header without its first line. */
  function UseHead(f: ClassFile): seq<string> {
    if |f.head| == 0 then [] else f.head[1..]
  }

  /** What reflection and `uniqid()` supply: the methods the class already
      has, the file of the class itself (whose imports are read), the file
      of its root entity, and the unique ids. For a class outside an
      inheritance hierarchy the two files are the same. */
  datatype Environment = Environment(
    existing: set<string>,
    own: ClassFile,
    root: ClassFile,
    uniq: nat -> string)

  /** The generated body. */
  function NewBody(g: Synth.Generator, index: Scanner.Index, md: Synth.ClassMetadata, env: Environment): string {
    Synth.GenerateEntityBody(g, index, env.existing, md)
  }

  /** The import table after adding what the body names. */
  function UpdatedUses(body: string, env: Environment): Uses.Table {
    Uses.GetNewUses(Uses.GetCurrentUses(UseHead(env.own)), body, env.uniq)
  }

  /** The body with every imported name replaced by its alias. */
  function AliasedBody(g: Synth.Generator, index: Scanner.Index, md: Synth.ClassMetadata, env: Environment): string {
    var body := NewBody(g, index, md, env);
    Uses.AliasingUse(UpdatedUses(body, env), body)
  }

  /** The text of `file` with its `use` lines replaced by the import block
      of the table updated for `body`. */
  function RewriteWith(body: string, md: Synth.ClassMetadata, env: Environment, file: ClassFile): string {
    Uses.RewriteHead(file.head, file.rest, Uses.GenerateUsesBlock(UpdatedUses(body, env), md.namespace))
  }

  /** The text of `file` with its `use` lines replaced by the updated
      import block. */
  function RewrittenFile(g: Synth.Generator, index: Scanner.Index, md: Synth.ClassMetadata, env: Environment, file: ClassFile)
    : string
  {
    RewriteWith(NewBody(g, index, md, env), md, env, file)
  }

  /** `generateUpdatedEntityClass` as the source writes it: the imports are
      read from the class's own file, but the text that is rewritten and
      returned is the root entity's file. It fails exactly when that text
      has no `}`, and otherwise keeps it up to its last `}`, then the
      aliased body. */
  function GenerateUpdatedEntityClassAsWritten(g: Synth.Generator, index: Scanner.Index, md: Synth.ClassMetadata, env: Environment)
    : (r: Option<string>)
    ensures var code := RewrittenFile(g, index, md, env, env.root);
            r.None? <==> '}' !in code
    ensures var code := RewrittenFile(g, index, md, env, env.root);
            r.Some? ==>
              && StartsWith(r.value, code[..LastIndexOf(code, '}').value] + AliasedBody(g, index, md, env))
              && EndsWith(r.value, "}\n")
    ensures env.own == env.root ==> r == GenerateUpdatedEntityClass(g, index, md, env)
  {
    Splice(RewrittenFile(g, index, md, env, env.root), AliasedBody(g, index, md, env))
  }

  /** `generateUpdatedEntityClass`, rewriting the class's own file: the
      result that is written back to that file. It fails exactly when the
      rewritten text has no `}`, and otherwise keeps that text up to its
      last `}`, then the aliased body. */
  function GenerateUpdatedEntityClass(g: Synth.Generator, index: Scanner.Index, md: Synth.ClassMetadata, env: Environment)
    : (r: Option<string>)
    ensures var code := RewrittenFile(g, index, md, env, env.own);
            r.None? <==> '}' !in code
    ensures var code := RewrittenFile(g, index, md, env, env.own);
            r.Some? ==>
              && StartsWith(r.value, code[..LastIndexOf(code, '}').value] + AliasedBody(g, index, md, env))
              && EndsWith(r.value, "}\n")
  {
    Splice(RewrittenFile(g, index, md, env, env.own), AliasedBody(g, index, md, env))
  }

  lemma {:induction false} AliasingEmptyBody(t: Uses.Table)
    ensures Uses.AliasingUse(t, "") == ""
    decreases |t|
  {
    if |t| > 0 {
      AliasingEmptyBody(t[1..]);
    }
  }

  /** With nothing to add, the table is the one the class's own file
      imports and the aliased body is empty. */
  lemma NothingToAdd(g: Synth.Generator, index: Scanner.Index, md: Synth.ClassMetadata, env: Environment)
    requires forall q :: q in Synth.StubPlan(Synth.FilterMetadata(index, md)) ==>
               Synth.HasMethod(env.existing, Synth.MethodName(g, q.kind, q.fieldName))
    requires Synth.HasMethod(env.existing, "__construct")
    ensures NewBody(g, index, md, env) == ""
    ensures UpdatedUses(NewBody(g, index, md, env), env) == Uses.GetCurrentUses(UseHead(env.own))
    ensures AliasedBody(g, index, md, env) == ""
  {
    Synth.RegenerationAddsNothing(g, index, env.existing, md);
    AliasingEmptyBody(UpdatedUses("", env));
  }

  /** With nothing to add, a file without `use` lines whose text ends with
      its closing brace comes back as it was, with a final newline,
      whatever the import table. */
  lemma PlainFileComesBack(g: Synth.Generator, index: Scanner.Index, md: Synth.ClassMetadata, env: Environment, file: ClassFile)
    requires forall q :: q in Synth.StubPlan(Synth.FilterMetadata(index, md)) ==>
               Synth.HasMethod(env.existing, Synth.MethodName(g, q.kind, q.fieldName))
    requires Synth.HasMethod(env.existing, "__construct")
    requires forall k :: 0 <= k < |file.head| ==> !Uses.IsUseLine(file.head[k])
    requires var text := Join(file.head + file.rest, "\n");
             |text| > 0 && text[|text| - 1] == '}'
    ensures Splice(RewrittenFile(g, index, md, env, file), AliasedBody(g, index, md, env))
            == Some(Join(file.head + file.rest, "\n") + "\n")
  {
    NothingToAdd(g, index, md, env);
    var uses := UpdatedUses(NewBody(g, index, md, env), env);
    Uses.RewriteWithoutUseLines(file.head, Uses.GenerateUsesBlock(uses, md.namespace), true);
    SpliceEmptyBody(Join(file.head + file.rest, "\n"));
  }

  /** A header that is lines without `use `, an import block and more such
      lines reads back, past its first line, as the block's table. */
  lemma OwnHeaderReadsBack(f: ClassFile, pre: seq<string>, t: Uses.Table, post: seq<string>)
    requires |pre| >= 1 && f.head == pre + Uses.ImportLines(t) + post
    requires forall k :: 0 <= k < |pre| ==> !Uses.IsUseLine(pre[k])
    requires forall k :: 0 <= k < |post| ==> !Uses.IsUseLine(post[k])
    requires Uses.UniqueAliases(t)
    requires forall k :: 0 <= k < |t| ==> Uses.IsCleanName(t[k].symbol) && Uses.IsCleanName(t[k].alias)
    ensures Uses.GetCurrentUses(UseHead(f)) == t
  {
    var rest := pre[1..];
    Uses.HeaderReadsBack(rest, t, post);
    UseHeadPastFirst(f, pre, Uses.ImportLines(t), post);
  }

  lemma UseHeadPastFirst(f: ClassFile, pre: seq<string>, lines: seq<string>, post: seq<string>)
    requires |pre| >= 1 && f.head == pre + lines + post
    ensures UseHead(f) == pre[1..] + lines + post
  {
    assert (pre + lines + post)[1..] == pre[1..] + lines + post;
  }

  /** The header of `f` is its first line and other lines without `use `
      (`pre` and `post`) around a block of imports as the generator prints
      them: names without whitespace or `;`, unique aliases, none in the
      class's own namespace. */
  predicate GeneratedHeader(f: ClassFile, pre: seq<string>, t: Uses.Table, post: seq<string>, namespace: string) {
    && |pre| >= 1 && f.head == pre + Uses.ImportLines(t) + post
    && (forall k :: 0 <= k < |pre| ==> !Uses.IsUseLine(pre[k]))
    && (forall k :: 0 <= k < |post| ==> !Uses.IsUseLine(post[k]))
    && Uses.UniqueAliases(t)
    && (forall k :: 0 <= k < |t| ==> Uses.IsCleanName(t[k].symbol) && Uses.IsCleanName(t[k].alias))
    && (forall k :: 0 <= k < |t| ==> NamespaceOf(t[k].symbol) != namespace)
  }

  /** With no body, a header whose only `use` lines are an import block
      as the generator prints it is rewritten into the file's own text: the
      block read back is the table, no entry is added, and every entry is
      printed again in place. */
  lemma OwnTextKept(md: Synth.ClassMetadata, env: Environment, pre: seq<string>, t: Uses.Table, post: seq<string>)
    requires GeneratedHeader(env.own, pre, t, post, md.namespace)
    ensures RewriteWith("", md, env, env.own) == Join(env.own.head + env.own.rest, "\n")
  {
    OwnHeaderReadsBack(env.own, pre, t, post);
    assert UpdatedUses("", env) == t by {
      assert UpdatedUses("", env) == Uses.GetNewUses(t, "", env.uniq);
      assert Uses.GetNewUses(t, "", env.uniq) == t;
    }
    Uses.ImportedUsesAll(t, md.namespace);
    Uses.RewriteHeadKeepsBlock(pre, t, post, env.own.rest);
  }

  /** Regenerating a class that already has every planned method and a
      constructor gives back the same text with a final newline, when its
      header's only `use` lines are a block of imports as the generator
      prints them: names without whitespace or `;`, unique aliases, none in
      the class's own namespace. */
  lemma RegenerationKeepsClass(
    g: Synth.Generator, index: Scanner.Index, md: Synth.ClassMetadata, env: Environment,
    pre: seq<string>, t: Uses.Table, post: seq<string>)
    requires forall q :: q in Synth.StubPlan(Synth.FilterMetadata(index, md)) ==>
               Synth.HasMethod(env.existing, Synth.MethodName(g, q.kind, q.fieldName))
    requires Synth.HasMethod(env.existing, "__construct")
    requires GeneratedHeader(env.own, pre, t, post, md.namespace)
    requires var text := Join(env.own.head + env.own.rest, "\n");
             |text| > 0 && text[|text| - 1] == '}'
    ensures GenerateUpdatedEntityClass(g, index, md, env) == Some(Join(env.own.head + env.own.rest, "\n") + "\n")
  {
    OwnTextKept(md, env, pre, t, post);
    NothingToAdd(g, index, md, env);
    SpliceEmptyBody(Join(env.own.head + env.own.rest, "\n"));
  }

  /** The file of a subclass and the file of its root entity. */
  function ChildFile(): ClassFile {
    ClassFile(["<?php"], ["class Child extends Base", "{", "}"])
  }

  function BaseFile(): ClassFile {
    ClassFile(["<?php"], ["class Base", "{", "}"])
  }

  function ChildMetadata(): Synth.ClassMetadata {
    Synth.ClassMetadata("Child", "", Synth.Auto, [], [])
  }

  function ChildEnvironment(uniq: nat -> string): Environment {
    Environment({"__construct"}, ChildFile(), BaseFile(), uniq)
  }

  /** The child has nothing to generate. */
  lemma ChildFacts(g: Synth.Generator, index: Scanner.Index, uniq: nat -> string)
    ensures forall q :: q in Synth.StubPlan(Synth.FilterMetadata(index, ChildMetadata())) ==>
              Synth.HasMethod(ChildEnvironment(uniq).existing, Synth.MethodName(g, q.kind, q.fieldName))
    ensures Synth.HasMethod(ChildEnvironment(uniq).existing, "__construct")
    ensures FileFacts()
  {
    assert Synth.StubPlan(Synth.FilterMetadata(index, ChildMetadata())) == [];
    assert Lower("__construct") == Lower("__construct");
    FileTexts();
  }

  /** Neither file has a `use` line; their texts. */
  predicate FileFacts() {
    && !Uses.IsUseLine("<?php")
    && Join(ChildFile().head + ChildFile().rest, "\n") == "<?php\nclass Child extends Base\n{\n}"
    && Join(BaseFile().head + BaseFile().rest, "\n") == "<?php\nclass Base\n{\n}"
  }

  lemma FileTexts()
    ensures FileFacts()
  {
    MissingCharNotContained("<?php", "use ", 'u');
    ChildText();
    BaseText();
  }

  lemma ChildText()
    ensures Join(ChildFile().head + ChildFile().rest, "\n") == "<?php\nclass Child extends Base\n{\n}"
  {
    ClassText("<?php", "class Child extends Base");
    assert ChildFile().head + ChildFile().rest == ["<?php", "class Child extends Base", "{", "}"];
    assert "<?php" + "\n" == "<?php\n";
    assert "<?php\n" + "class Child extends Base" == "<?php\nclass Child extends Base";
    assert "<?php\nclass Child extends Base" + "\n{\n}" == "<?php\nclass Child extends Base\n{\n}";
  }

  lemma BaseText()
    ensures Join(BaseFile().head + BaseFile().rest, "\n") == "<?php\nclass Base\n{\n}"
  {
    ClassText("<?php", "class Base");
    assert BaseFile().head + BaseFile().rest == ["<?php", "class Base", "{", "}"];
    assert "<?php" + "\n" == "<?php\n";
    assert "<?php\n" + "class Base" == "<?php\nclass Base";
    assert "<?php\nclass Base" + "\n{\n}" == "<?php\nclass Base\n{\n}";
  }

  /** A file of an opening line, a class line and an empty class body. */
  lemma ClassText(open: string, decl: string)
    ensures Join([open, decl, "{", "}"], "\n") == open + "\n" + decl + "\n{\n}"
  {
    JoinCons(open, [decl, "{", "}"], "\n");
    JoinCons(decl, ["{", "}"], "\n");
    JoinCons("{", ["}"], "\n");
    assert Join(["}"], "\n") == "}";
    assert "{" + "\n" + "}" == "{\n}";
    assert decl + "\n" + "{\n}" == decl + "\n{\n}";
  }

  /** A subclass with nothing to generate, whose root entity lives in
      another file: the source's update returns the root entity's text,
      which is then written over the subclass's file. */
  lemma RootFileReplacesSubclass(g: Synth.Generator, index: Scanner.Index, uniq: nat -> string)
    ensures GenerateUpdatedEntityClassAsWritten(g, index, ChildMetadata(), ChildEnvironment(uniq))
            == Some("<?php\nclass Base\n{\n}\n")
  {
    ChildFacts(g, index, uniq);
    var md, env, file := ChildMetadata(), ChildEnvironment(uniq), BaseFile();
    var text: string := "<?php\nclass Base\n{\n}";
    assert text + "\n" == "<?php\nclass Base\n{\n}\n";
    assert Join(file.head + file.rest, "\n") == text;
    assert |text| > 0 && text[|text| - 1] == '}';
    assert forall k :: 0 <= k < |file.head| ==> !Uses.IsUseLine(file.head[k]);
    PlainFileComesBack(g, index, md, env, file);
    assert env.root == BaseFile() && env.own == ChildFile();
    assert GenerateUpdatedEntityClassAsWritten(g, index, md, env) == Some(text + "\n");
  }

  /** Rewriting the class's own file returns the subclass's text. */
  lemma OwnFileKeepsSubclass(g: Synth.Generator, index: Scanner.Index, uniq: nat -> string)
    ensures GenerateUpdatedEntityClass(g, index, ChildMetadata(), ChildEnvironment(uniq))
            == Some("<?php\nclass Child extends Base\n{\n}\n")
  {
    ChildFacts(g, index, uniq);
    var md, env, file := ChildMetadata(), ChildEnvironment(uniq), ChildFile();
    var text: string := "<?php\nclass Child extends Base\n{\n}";
    assert text + "\n" == "<?php\nclass Child extends Base\n{\n}\n";
    assert Join(file.head + file.rest, "\n") == text;
    assert |text| > 0 && text[|text| - 1] == '}';
    assert forall k :: 0 <= k < |file.head| ==> !Uses.IsUseLine(file.head[k]);
    PlainFileComesBack(g, index, md, env, file);
    assert env.own == ChildFile();
    assert GenerateUpdatedEntityClass(g, index, md, env) == Some(text + "\n");
  }

  // ----- writing the file back -----

  /** The file system as a map from path to contents. */
  type Files = map<string, string>

  /** How `writeEntityClass` ends: the file at the entity's path is missing
      (`file_get_contents` returns `false`, which `token_get_all` rejects
      under strict types), the scan of its tokens threw, the backup copy
      failed, the update threw after the backup was made, `file_put_contents`
      failed (it returns `false`, which the method ignores, and the file
      keeps its old contents), or the new contents were written. */
  datatype Outcome =
    | MissingFile
    | ScanFailed
    | BackupFailed
    | GenerationFailed(files: Files)
    | WriteFailed(files: Files)
    | Written(files: Files)
  {
    /** The backup step was passed, so a file system results. */
    predicate PastBackup() {
      GenerationFailed? || WriteFailed? || Written?
    }
  }

  /** The backup step: `path~` receives the old contents when backups are
      on; `copyOk` stands for the result of `copy`. */
  function Backup(files: Files, path: string, backupExisting: bool, copyOk: bool): (r: Option<Files>)
    requires path in files
    ensures r.None? <==> backupExisting && !copyOk
    ensures r.Some? && backupExisting ==> path + "~" in r.value && r.value[path + "~"] == files[path]
    ensures r.Some? ==> forall p :: p != path + "~" ==> (p in r.value <==> p in files)
    ensures r.Some? ==> forall p :: p != path + "~" && p in files ==> r.value[p] == files[p]
  {
    if !backupExisting then Some(files)
    else if copyOk then Some(files[path + "~" := files[path]])
    else None
  }

  /** What `writeEntityClass` does once the scan has succeeded: the backup,
      then the result of the update, `update`, written to `path`;
      `writeOk` stands for the result of `file_put_contents`. */
  function BackupAndWrite(
    files: Files, path: string, backupExisting: bool, copyOk: bool, writeOk: bool, update: Option<string>)
    : (r: Outcome)
    requires path in files
    ensures !r.MissingFile? && !r.ScanFailed?
    ensures r.BackupFailed? <==> backupExisting && !copyOk
    ensures r.GenerationFailed? <==> !(backupExisting && !copyOk) && update.None?
    ensures r.WriteFailed? <==> !(backupExisting && !copyOk) && update.Some? && !writeOk
    ensures r.Written? ==> path in r.files && Some(r.files[path]) == update
    ensures r.GenerationFailed? || r.WriteFailed? ==> path in r.files && r.files[path] == files[path]
    ensures r.PastBackup() ==>
              forall p :: p != path && p != path + "~" ==> (p in r.files <==> p in files)
    ensures r.PastBackup() ==>
              forall p :: p != path && p != path + "~" && p in files ==> r.files[p] == files[p]
    ensures backupExisting && r.PastBackup() ==>
              path + "~" in r.files && r.files[path + "~"] == files[path]
  {
    match Backup(files, path, backupExisting, copyOk)
    case None => BackupFailed
    case Some(backedUp) =>
      match update
      case None => GenerationFailed(backedUp)
      case Some(code) => if writeOk then Written(backedUp[path := code]) else WriteFailed(backedUp)
  }

  /** `writeEntityClass` for an entity whose file is at `path`, writing the
      corrected update; `tokens` is what `token_get_all` yields for that
      file's contents. The index the scan extends is the one the update's
      filters consult. */
  function WriteEntityClass(
    g: Synth.Generator, prior: Scanner.Index, md: Synth.ClassMetadata, env: Environment,
    files: Files, path: string, tokens: seq<Scanner.Token>, backupExisting: bool, copyOk: bool, writeOk: bool)
    : (r: Outcome)
    ensures r.MissingFile? <==> path !in files
    ensures r.ScanFailed? <==> path in files && exists j :: Scanner.TruncatedDeclarationAt(tokens, j)
    ensures path in files && Scanner.ParseEntityFile(prior, tokens).Some? ==>
              r == BackupAndWrite(files, path, backupExisting, copyOk, writeOk,
                                  GenerateUpdatedEntityClass(g, Scanner.ParseTokensInEntityFile(prior, tokens), md, env))
  {
    if path !in files then MissingFile
    else
      match Scanner.ParseEntityFile(prior, tokens)
      case None => ScanFailed
      case Some(index) =>
        BackupAndWrite(files, path, backupExisting, copyOk, writeOk, GenerateUpdatedEntityClass(g, index, md, env))
  }

  /** `writeEntityClass` as the source writes it: what is written to the
      entity's path is the update as written, the root entity's file. */
  function WriteEntityClassAsWritten(
    g: Synth.Generator, prior: Scanner.Index, md: Synth.ClassMetadata, env: Environment,
    files: Files, path: string, tokens: seq<Scanner.Token>, backupExisting: bool, copyOk: bool, writeOk: bool)
    : (r: Outcome)
    ensures r.MissingFile? <==> path !in files
    ensures r.ScanFailed? <==> path in files && exists j :: Scanner.TruncatedDeclarationAt(tokens, j)
    ensures path in files && Scanner.ParseEntityFile(prior, tokens).Some? ==>
              r == BackupAndWrite(files, path, backupExisting, copyOk, writeOk,
                                  GenerateUpdatedEntityClassAsWritten(g, Scanner.ParseTokensInEntityFile(prior, tokens), md, env))
    ensures env.own == env.root ==>
              r == WriteEntityClass(g, prior, md, env, files, path, tokens, backupExisting, copyOk, writeOk)
  {
    if path !in files then MissingFile
    else
      match Scanner.ParseEntityFile(prior, tokens)
      case None => ScanFailed
      case Some(index) =>
        BackupAndWrite(files, path, backupExisting, copyOk, writeOk, GenerateUpdatedEntityClassAsWritten(g, index, md, env))
  }

  /** As written, writing the subclass `Child` replaces its file with the
      text of its root entity `Base`. */
  lemma WriteReplacesSubclass(g: Synth.Generator, prior: Scanner.Index, uniq: nat -> string, files: Files)
    requires "Child.php" in files
    ensures WriteEntityClassAsWritten(g, prior, ChildMetadata(), ChildEnvironment(uniq), files, "Child.php", [], false, true, true)
            == Written(files["Child.php" := "<?php\nclass Base\n{\n}\n"])
  {
    assert Scanner.ParseEntityFile(prior, []).Some?;
    RootFileReplacesSubclass(g, Scanner.ParseTokensInEntityFile(prior, []), uniq);
  }

  /** The corrected write keeps the subclass's own text. */
  lemma WriteKeepsSubclass(g: Synth.Generator, prior: Scanner.Index, uniq: nat -> string, files: Files)
    requires "Child.php" in files
    ensures WriteEntityClass(g, prior, ChildMetadata(), ChildEnvironment(uniq), files, "Child.php", [], false, true, true)
            == Written(files["Child.php" := "<?php\nclass Child extends Base\n{\n}\n"])
  {
    assert Scanner.ParseEntityFile(prior, []).Some?;
    OwnFileKeepsSubclass(g, Scanner.ParseTokensInEntityFile(prior, []), uniq);
  }

  /** After a write with backups on, `path~` holds what `path` held before,
      and the new contents are the updated class, ending with its closing
      brace. */
  lemma WriteKeepsBackup(
    g: Synth.Generator, prior: Scanner.Index, md: Synth.ClassMetadata, env: Environment,
    files: Files, path: string, tokens: seq<Scanner.Token>, copyOk: bool, writeOk: bool)
    requires WriteEntityClass(g, prior, md, env, files, path, tokens, true, copyOk, writeOk).Written?
    ensures var r := WriteEntityClass(g, prior, md, env, files, path, tokens, true, copyOk, writeOk).files;
            && path + "~" in r && r[path + "~"] == files[path]
            && path in r && EndsWith(r[path], "}\n")
  {
    var index := Scanner.ParseTokensInEntityFile(prior, tokens);
    var code := GenerateUpdatedEntityClass(g, index, md, env);
    assert code.Some?;
  }
}

=== FILE: optional.dfy ===
/** A value that may be absent: PHP's `null`/`false` returns, as a datatype. */
module Optional {

  datatype Option<+T> = None | Some(value: T) {

    /** The wrapped value, or `default` when absent. */
    function GetOr(default: T): T {
      match this
      case Some(v) => v
      case None => default
    }
  }
}

=== FILE: scanner.dfy ===
/** The declaration scanner of `EntityGenerator::parseTokensInEntityFile`:
    one pass over the token stream of an entity file that records, per
    class, the property names and method names it declares, and
    `hasProperty`, which reads that record. */
module Scanner {

  import opened Optional
  import opened Text

  /** The tokens the scanner distinguishes. `Ident` is PHP's `T_STRING`;
      `Punct` is a one-character token, which the tokenizer hands out as a
      bare string; `Other` is every remaining token kind with its text. */
  datatype Token =
    | Whitespace(text: string)
    | Comment(text: string)
    | DocComment(text: string)
    | Namespace
    | NsSeparator
    | Ident(text: string)
    | Variable(text: string)
    | Class
    | Function
    | Var
    | Public
    | Private
    | Protected
    | Punct(c: char)
    | Other(text: string)
  {
    /** Whitespace and comments, which the scanner skips. */
    predicate IsTrivia() {
      Whitespace? || Comment? || DocComment?
    }

    /** `var`, `public`, `private` or `protected`. */
    predicate IsVisibility() {
      Var? || Public? || Private? || Protected?
    }

    /** `$token[1]`: the token's text. For a one-character token it reads
        past the end of the string, which yields "". */
    function Lexeme(): string {
      match this
      case Whitespace(s) => s
      case Comment(s) => s
      case DocComment(s) => s
      case Namespace => "namespace"
      case NsSeparator => "\\"
      case Ident(s) => s
      case Variable(s) => s
      case Class => "class"
      case Function => "function"
      case Var => "var"
      case Public => "public"
      case Private => "private"
      case Protected => "protected"
      case Punct(_) => ""
      case Other(s) => s
    }
  }

  /** What the scanner knows about one class, in order of appearance. */
  datatype ClassDecls = ClassDecls(properties: seq<string>, methods: seq<string>)

  /** The declaration index: class name to its declarations. */
  type Index = map<string, ClassDecls>

  /** The scanner's variables: the namespace read so far, the class being
      scanned (none before the first class), the two "reading a name" flags,
      and the index being built. */
  datatype ScanState = ScanState(
    namespace: string,
    current: Option<string>,
    inNamespace: bool,
    inClass: bool,
    index: Index)

  /** The class key: the namespace, a backslash when the namespace is truthy,
      and the name. A truthy namespace and a plain name can be read back off
      the key; a falsy namespace (empty, or the string "0") is joined to the
      name with no separator. */
  function QualifiedName(namespace: string, name: string): (r: string)
    ensures Truthy(namespace) && '\\' !in name ==>
      LastSegment(r) == name && NamespaceOf(r) == namespace
    ensures !Truthy(namespace) ==> r == namespace + name
    ensures namespace == "" ==> r == name
  {
    var r := namespace + (if Truthy(namespace) then "\\" else "") + name;
    assert Truthy(namespace) && '\\' !in name ==>
      LastSegment(r) == name && NamespaceOf(r) == namespace by {
      if Truthy(namespace) && '\\' !in name {
        QualifiedNameParts(namespace, name);
      }
    }
    assert namespace == "" ==> r == name;
    r
  }

  function DeclsOf(index: Index, c: string): ClassDecls {
    if c in index then index[c] else ClassDecls([], [])
  }

  /** Records a method for the current class. Before any class the source
      files it under the integer key 0, which no class name can reach; the
      model drops it. */
  function AddMethod(st: ScanState, name: string): (r: ScanState)
    ensures r.namespace == st.namespace && r.current == st.current
    ensures r.inNamespace == st.inNamespace && r.inClass == st.inClass
    ensures st.current.None? ==> r.index == st.index
    ensures st.current.Some? ==>
      var c := st.current.value;
      && r.index.Keys == st.index.Keys + {c}
      && r.index[c].methods == DeclsOf(st.index, c).methods + [name]
      && r.index[c].properties == DeclsOf(st.index, c).properties
      && (forall d :: d in st.index && d != c ==> r.index[d] == st.index[d])
  {
    match st.current
    case None => st
    case Some(c) =>
      var d := DeclsOf(st.index, c);
      st.(index := st.index[c := d.(methods := d.methods + [name])])
  }

  /** Records a property for the current class (dropped before any class). */
  function AddProperty(st: ScanState, name: string): (r: ScanState)
    ensures r.namespace == st.namespace && r.current == st.current
    ensures r.inNamespace == st.inNamespace && r.inClass == st.inClass
    ensures st.current.None? ==> r.index == st.index
    ensures st.current.Some? ==>
      var c := st.current.value;
      && r.index.Keys == st.index.Keys + {c}
      && r.index[c].properties == DeclsOf(st.index, c).properties + [name]
      && r.index[c].methods == DeclsOf(st.index, c).methods
      && (forall d :: d in st.index && d != c ==> r.index[d] == st.index[d])
  {
    match st.current
    case None => st
    case Some(c) =>
      var d := DeclsOf(st.index, c);
      st.(index := st.index[c := d.(properties := d.properties + [name])])
  }

  /** `mb_substr(s, 1)`: a property token's text without its `$`. */
  function DropSigil(s: string): string {
    if |s| == 0 then "" else s[1..]
  }

  /** The method declared by a `function` token at `j`: the identifier two
      tokens on, or three tokens on when the one between is `&`. */
  ghost predicate MethodDeclaredAt(tokens: seq<Token>, j: int, m: string) {
    && 0 <= j < |tokens|
    && tokens[j].Function?
    && ((j + 2 < |tokens| && tokens[j + 2] == Ident(m))
        || (j + 3 < |tokens| && tokens[j + 2] == Punct('&') && tokens[j + 3] == Ident(m)))
  }

  /** The property declared by a visibility token at `j`: the text two
      tokens on, less its first character, unless that token is `function`. */
  ghost predicate PropertyDeclaredAt(tokens: seq<Token>, j: int, p: string) {
    && 0 <= j < |tokens|
    && tokens[j].IsVisibility()
    && j + 2 < |tokens|
    && !tokens[j + 2].Function?
    && DropSigil(tokens[j + 2].Lexeme()) == p
  }

  /** The namespace part of one step: while reading a namespace name,
      separators and identifiers extend it and `;` or `{` ends it. */
  function NamespacePart(st: ScanState, t: Token): (r: ScanState)
    ensures r.current == st.current && r.inClass == st.inClass && r.index == st.index
    ensures !st.inNamespace ==> r == st
    ensures st.inNamespace && (t.NsSeparator? || t.Ident?) ==>
      r.inNamespace && r.namespace == st.namespace + t.Lexeme()
    ensures st.inNamespace && (t == Punct(';') || t == Punct('{')) ==>
      !r.inNamespace && r.namespace == st.namespace
  {
    if !st.inNamespace then st
    else if t.NsSeparator? || t.Ident? then st.(namespace := st.namespace + t.Lexeme())
    else if t == Punct(';') || t == Punct('{') then st.(inNamespace := false)
    else st
  }

  /** The class part of one step: the token after `class` names the class,
      whose entry starts (again) empty. */
  function ClassPart(st: ScanState, t: Token): (r: ScanState)
    ensures r.namespace == st.namespace && r.inNamespace == st.inNamespace && !r.inClass
    ensures !st.inClass ==> r == st
    ensures st.inClass ==>
      var key := QualifiedName(st.namespace, t.Lexeme());
      && r.current == Some(key)
      && r.index == st.index[key := ClassDecls([], [])]
  {
    if st.inClass then
      var key := QualifiedName(st.namespace, t.Lexeme());
      st.(inClass := false, current := Some(key), index := st.index[key := ClassDecls([], [])])
    else st
  }

  /** One iteration of the scanning loop, on the token at `i`. The
      lookahead reads positions `i + 2` and `i + 3`, which may lie past
      the end. */
  function Step(tokens: seq<Token>, i: nat, st: ScanState): (r: ScanState)
    requires i < |tokens|
    ensures tokens[i].IsTrivia() ==> r == st
    ensures st.index.Keys <= r.index.Keys
  {
    var t := tokens[i];
    if t.IsTrivia() then st
    else
      var s := ClassPart(NamespacePart(st, t), t);
      if t.Namespace? then s.(namespace := "", inNamespace := true)
      else if t.Class? then s.(inClass := true)
      else if t.Function? then
        if i + 2 < |tokens| && tokens[i + 2].Ident? then AddMethod(s, tokens[i + 2].text)
        else if i + 3 < |tokens| && tokens[i + 2] == Punct('&') && tokens[i + 3].Ident? then
          AddMethod(s, tokens[i + 3].text)
        else s
      else if t.IsVisibility() && i + 2 < |tokens| && !tokens[i + 2].Function? then
        AddProperty(s, DropSigil(tokens[i + 2].Lexeme()))
      else s
  }

  /** The loop from position `i` to the end. */
  function ScanFrom(tokens: seq<Token>, i: nat, st: ScanState): ScanState
    requires i <= |tokens|
    decreases |tokens| - i
  {
    if i == |tokens| then st else ScanFrom(tokens, i + 1, Step(tokens, i, st))
  }

  function InitialState(index: Index): ScanState {
    ScanState("", None, false, false, index)
  }

  /** `parseTokensInEntityFile`: the source keeps the index in a field that
      outlives one file, so the scan extends the index it is given. */
  function ParseTokensInEntityFile(index: Index, tokens: seq<Token>): Index {
    ScanFrom(tokens, 0, InitialState(index)).index
  }

  /** A visibility token at `j` with no token two positions on: the scan
      hands `null` to `mb_substr`, which throws under strict types. */
  ghost predicate TruncatedDeclarationAt(tokens: seq<Token>, j: int) {
    0 <= j < |tokens| && tokens[j].IsVisibility() && |tokens| <= j + 2
  }

  /** `parseTokensInEntityFile` with its failure made explicit: the scan
      throws exactly when a visibility token sits in one of the last two
      positions, and otherwise yields the extended index. */
  function ParseEntityFile(index: Index, tokens: seq<Token>): (r: Option<Index>)
    ensures r.None? <==> exists j :: TruncatedDeclarationAt(tokens, j)
    ensures r.Some? ==> r.value == ParseTokensInEntityFile(index, tokens)
  {
    var n := |tokens|;
    if n >= 1 && tokens[n - 1].IsVisibility() then
      assert TruncatedDeclarationAt(tokens, n - 1);
      None
    else if n >= 2 && tokens[n - 2].IsVisibility() then
      assert TruncatedDeclarationAt(tokens, n - 2);
      None
    else
      Some(ParseTokensInEntityFile(index, tokens))
  }

  /** `hasProperty`: the class has been scanned and declares the property. */
  predicate HasProperty(index: Index, className: string, property: string) {
    className in index && property in index[className].properties
  }

  /** `hasProperty` is false for a class the scan never saw. */
  lemma HasPropertyNeedsScannedClass(index: Index, className: string, property: string)
    requires className !in index
    ensures !HasProperty(index, className, property)
  {
  }

  // ----- facts about one step -----

  /** Namespace tracking: a `namespace` token clears the namespace and starts
      reading; while reading, separators and identifiers are appended and `;`
      or `{` stops it. */
  lemma StepNamespace(tokens: seq<Token>, i: nat, st: ScanState)
    requires i < |tokens|
    ensures tokens[i].Namespace? ==>
      Step(tokens, i, st).inNamespace && Step(tokens, i, st).namespace == ""
    ensures st.inNamespace && (tokens[i].NsSeparator? || tokens[i].Ident?) ==>
      Step(tokens, i, st).inNamespace
      && Step(tokens, i, st).namespace == st.namespace + tokens[i].Lexeme()
    ensures st.inNamespace && (tokens[i] == Punct(';') || tokens[i] == Punct('{')) ==>
      !Step(tokens, i, st).inNamespace && Step(tokens, i, st).namespace == st.namespace
  {
  }

  /** The token after `class` opens a fresh, empty entry under its
      namespaced name and makes it the current class. */
  lemma StepClassName(tokens: seq<Token>, i: nat, st: ScanState, name: string)
    requires i < |tokens| && tokens[i] == Ident(name)
    requires st.inClass && !st.inNamespace
    ensures var key := QualifiedName(st.namespace, name);
      && Step(tokens, i, st).current == Some(key)
      && key in Step(tokens, i, st).index
      && Step(tokens, i, st).index[key] == ClassDecls([], [])
      && !Step(tokens, i, st).inClass
  {
  }

  /** A `function` token inside a class records the method it declares. */
  lemma StepMethod(tokens: seq<Token>, i: nat, st: ScanState, c: string, m: string)
    requires i < |tokens| && tokens[i].Function?
    requires st.current == Some(c) && !st.inClass
    requires MethodDeclaredAt(tokens, i, m)
    ensures c in Step(tokens, i, st).index
    ensures Step(tokens, i, st).index[c].methods == DeclsOf(st.index, c).methods + [m]
    ensures Step(tokens, i, st).index[c].properties == DeclsOf(st.index, c).properties
  {
  }

  /** A visibility token inside a class records a property unless the
      declaration is a method, and a method declaration adds no property. */
  lemma StepProperty(tokens: seq<Token>, i: nat, st: ScanState, c: string)
    requires i < |tokens| && tokens[i].IsVisibility()
    requires st.current == Some(c) && !st.inClass
    ensures i + 2 < |tokens| && !tokens[i + 2].Function? ==>
      Step(tokens, i, st).index[c].properties
        == DeclsOf(st.index, c).properties + [DropSigil(tokens[i + 2].Lexeme())]
    ensures i + 2 < |tokens| && tokens[i + 2].Function? ==>
      Step(tokens, i, st).index == st.index
  {
  }

  // ----- soundness of the whole scan -----

  /** Everything in `index` either was in `prior` or is declared somewhere in
      `tokens`. */
  ghost predicate Sound(index: Index, prior: Index, tokens: seq<Token>) {
    forall c :: c in index ==>
      && (forall m :: m in index[c].methods ==>
            (c in prior && m in prior[c].methods) || exists j :: MethodDeclaredAt(tokens, j, m))
      && (forall p :: p in index[c].properties ==>
            (c in prior && p in prior[c].properties) || exists j :: PropertyDeclaredAt(tokens, j, p))
  }

  lemma AddMethodSound(tokens: seq<Token>, st: ScanState, prior: Index, j: int, m: string)
    requires Sound(st.index, prior, tokens)
    requires MethodDeclaredAt(tokens, j, m)
    ensures Sound(AddMethod(st, m).index, prior, tokens)
  {
  }

  lemma AddPropertySound(tokens: seq<Token>, st: ScanState, prior: Index, j: int, p: string)
    requires Sound(st.index, prior, tokens)
    requires PropertyDeclaredAt(tokens, j, p)
    ensures Sound(AddProperty(st, p).index, prior, tokens)
  {
  }

  lemma StepSound(tokens: seq<Token>, i: nat, st: ScanState, prior: Index)
    requires i < |tokens|
    requires Sound(st.index, prior, tokens)
    ensures Sound(Step(tokens, i, st).index, prior, tokens)
  {
    var t := tokens[i];
    if !t.IsTrivia() {
      var s := ClassPart(NamespacePart(st, t), t);
      assert Sound(s.index, prior, tokens);
      if t.Function? {
        if i + 2 < |tokens| && tokens[i + 2].Ident? {
          AddMethodSound(tokens, s, prior, i, tokens[i + 2].text);
        } else if i + 3 < |tokens| && tokens[i + 2] == Punct('&') && tokens[i + 3].Ident? {
          AddMethodSound(tokens, s, prior, i, tokens[i + 3].text);
        }
      } else if t.IsVisibility() && i + 2 < |tokens| && !tokens[i + 2].Function? {
        AddPropertySound(tokens, s, prior, i, DropSigil(tokens[i + 2].Lexeme()));
      }
    }
  }

  lemma {:induction false} ScanFromSound(tokens: seq<Token>, i: nat, st: ScanState, prior: Index)
    requires i <= |tokens|
    requires Sound(st.index, prior, tokens)
    ensures Sound(ScanFrom(tokens, i, st).index, prior, tokens)
    decreases |tokens| - i
  {
    if i < |tokens| {
      StepSound(tokens, i, st, prior);
      ScanFromSound(tokens, i + 1, Step(tokens, i, st), prior);
    }
  }

  /** The scan invents nothing: every method and property it adds to the
      index is declared in the token stream, and every class the index held
      before is still there. */
  lemma ScanOnlyRecordsDeclarations(prior: Index, tokens: seq<Token>)
    ensures prior.Keys <= ParseTokensInEntityFile(prior, tokens).Keys
    ensures Sound(ParseTokensInEntityFile(prior, tokens), prior, tokens)
  {
    ScanFromSound(tokens, 0, InitialState(prior), prior);
    ScanFromKeys(tokens, 0, InitialState(prior));
  }

  lemma {:induction false} ScanFromKeys(tokens: seq<Token>, i: nat, st: ScanState)
    requires i <= |tokens|
    ensures st.index.Keys <= ScanFrom(tokens, i, st).index.Keys
    decreases |tokens| - i
  {
    if i < |tokens| {
      ScanFromKeys(tokens, i + 1, Step(tokens, i, st));
    }
  }
}

=== FILE: synth.dfy ===
/** The stub synthesiser of `EntityGenerator`: which accessor, mutator and
    collection methods to generate for an entity, in which order, with
    which template variables, and the constructor that initialises the
    collections. Template rendering, inflection and Doctrine's type table
    are external and appear as function-valued parameters. */
module Synth {

  import opened Optional
  import opened Text
  import Scanner

  // ----- the mapping metadata (Doctrine's ClassMetadataInfo) -----

  /** Doctrine's id generator strategies; only `NoGenerator`
      (GENERATOR_TYPE_NONE) matters here. */
  datatype GeneratorType = Auto | Sequence | Table | Identity | NoGenerator | Uuid | Custom

  /** A field mapping; an absent `id` key reads as false. */
  datatype FieldMapping = FieldMapping(fieldName: string, fieldType: string, id: bool)

  /** Doctrine's association type, a bit flag of which `TO_ONE` (3) covers
      the first two and `TO_MANY` (12) the last two. */
  datatype AssociationKind = OneToOne | ManyToOne | OneToMany | ManyToMany {
    predicate IsToOne() { OneToOne? || ManyToOne? }
    predicate IsToMany() { OneToMany? || ManyToMany? }
  }

  /** A join column; `nullable` may be absent. */
  datatype JoinColumn = JoinColumn(nullable: Option<bool>)

  datatype AssociationMapping = AssociationMapping(
    fieldName: string,
    targetEntity: string,
    kind: AssociationKind,
    isOwningSide: bool,
    id: bool,
    joinColumns: seq<JoinColumn>)

  /** The class metadata: fully qualified name, namespace, generator
      strategy and the two ordered mapping tables (keyed by field name). */
  datatype ClassMetadata = ClassMetadata(
    name: string,
    namespace: string,
    generatorType: GeneratorType,
    fields: seq<FieldMapping>,
    associations: seq<AssociationMapping>)

  // ----- the external collaborators -----

  /** The four stub templates, `entities/<kind>Method.php.twig`. */
  datatype StubKind = Set | Get | Add | Remove {
    function Prefix(): string {
      match this
      case Set => "set"
      case Get => "get"
      case Add => "add"
      case Remove => "remove"
    }
    predicate IsCollectionMutator() { Add? || Remove? }
  }

  /** The variables handed to a stub template. */
  datatype StubVars = StubVars(
    methodTypeHint: string,
    variableType: string,
    variableName: string,
    methodName: string,
    fieldName: string,
    variableDefault: string,
    entity: string,
    updateOwningSide: string,
    spaces: string)

  /** `Inflector::classify`, `Inflector::camelize` and `Singularize::word`. */
  datatype Inflector = Inflector(
    classify: string -> string,
    camelize: string -> string,
    singularize: string -> string)

  /** The Twig templates: one per stub kind, and the constructor template,
      which receives the initialisation lines and the indentation. */
  datatype Templates = Templates(
    stub: (StubKind, StubVars) -> string,
    constructorMethod: (seq<string>, string) -> string)

  /** The generator's configuration and collaborators. `isDbalType` answers
      whether a name is a key of `Type::getTypesMap()`. */
  datatype Generator = Generator(
    numSpaces: nat,
    inflector: Inflector,
    templates: Templates,
    isDbalType: string -> bool)
  {
    /** `$this->spaces`: one indentation level. */
    function Indent(): string {
      Spaces(numSpaces)
    }
  }

  // ----- schema drift: dropping mappings without a declared property -----

  /** `generateEntityFieldMappingProperties`: keeps the field mappings whose
      field is a declared property of the class. */
  function FilterFields(index: Scanner.Index, className: string, fields: seq<FieldMapping>): (r: seq<FieldMapping>)
    ensures |r| <= |fields|
    ensures forall f :: f in r <==> f in fields && Scanner.HasProperty(index, className, f.fieldName)
  {
    if |fields| == 0 then []
    else
      var rest := FilterFields(index, className, fields[1..]);
      if Scanner.HasProperty(index, className, fields[0].fieldName) then [fields[0]] + rest else rest
  }

  /** `generateEntityAssociationMappingProperties`: the same for associations. */
  function FilterAssociations(index: Scanner.Index, className: string, associations: seq<AssociationMapping>)
    : (r: seq<AssociationMapping>)
    ensures |r| <= |associations|
    ensures forall a :: a in r <==> a in associations && Scanner.HasProperty(index, className, a.fieldName)
  {
    if |associations| == 0 then []
    else
      var rest := FilterAssociations(index, className, associations[1..]);
      if Scanner.HasProperty(index, className, associations[0].fieldName) then [associations[0]] + rest else rest
  }

  /** The field filter keeps the surviving mappings in their order and with
      their multiplicity: it distributes over concatenation, and a single
      mapping is kept exactly when its field is a declared property. */
  lemma {:induction false} FilterFieldsInOrder(index: Scanner.Index, className: string, a: seq<FieldMapping>, b: seq<FieldMapping>)
    ensures FilterFields(index, className, a + b) == FilterFields(index, className, a) + FilterFields(index, className, b)
    ensures forall f :: (FilterFields(index, className, [f]) ==
      if Scanner.HasProperty(index, className, f.fieldName) then [f] else [])
    decreases |a|
  {
    forall f {
      FilterFieldsOne(index, className, f);
    }
    if |a| == 0 {
      assert a + b == b;
    } else {
      assert (a + b)[0] == a[0];
      assert (a + b)[1..] == a[1..] + b;
      FilterFieldsInOrder(index, className, a[1..], b);
    }
  }

  /** The association filter, likewise. */
  lemma {:induction false} FilterAssociationsInOrder(index: Scanner.Index, className: string, a: seq<AssociationMapping>, b: seq<AssociationMapping>)
    ensures FilterAssociations(index, className, a + b) ==
      FilterAssociations(index, className, a) + FilterAssociations(index, className, b)
    ensures forall m :: (FilterAssociations(index, className, [m]) ==
      if Scanner.HasProperty(index, className, m.fieldName) then [m] else [])
    decreases |a|
  {
    forall m {
      FilterAssociationsOne(index, className, m);
    }
    if |a| == 0 {
      assert a + b == b;
    } else {
      assert (a + b)[0] == a[0];
      assert (a + b)[1..] == a[1..] + b;
      FilterAssociationsInOrder(index, className, a[1..], b);
    }
  }

  /** A single mapping survives exactly when its field is declared. */
  lemma FilterFieldsOne(index: Scanner.Index, className: string, f: FieldMapping)
    ensures FilterFields(index, className, [f]) == if Scanner.HasProperty(index, className, f.fieldName) then [f] else []
  {
    assert [f][1..] == [];
  }

  lemma FilterAssociationsOne(index: Scanner.Index, className: string, m: AssociationMapping)
    ensures FilterAssociations(index, className, [m]) ==
      if Scanner.HasProperty(index, className, m.fieldName) then [m] else []
  {
    assert [m][1..] == [];
  }

  function FilterMetadata(index: Scanner.Index, md: ClassMetadata): ClassMetadata {
    md.(fields := FilterFields(index, md.name, md.fields),
        associations := FilterAssociations(index, md.name, md.associations))
  }

  // ----- small helpers -----

  /** No join column is explicitly non-nullable. */
  function NoRequiredJoinColumn(joinColumns: seq<JoinColumn>): (r: bool)
    ensures r <==> forall k :: 0 <= k < |joinColumns| ==> joinColumns[k].nullable != Some(false)
  {
    if |joinColumns| == 0 then true
    else joinColumns[0].nullable != Some(false) && NoRequiredJoinColumn(joinColumns[1..])
  }

  /** `isAssociationIsNullable`: false for an id association and for one
      with an explicitly non-nullable join column. */
  function IsAssociationNullable(a: AssociationMapping): (r: bool)
    ensures r <==> !a.id && forall k :: 0 <= k < |a.joinColumns| ==> a.joinColumns[k].nullable != Some(false)
  {
    !a.id && NoRequiredJoinColumn(a.joinColumns)
  }

  /** `getClassName`: the text after the last backslash, except that a
      backslash at position 0 (the only one) is falsy and keeps the name. */
  function GetClassName(name: string): (r: string)
    ensures |name| > 0 && '\\' in name[1..] ==>
      '\\' !in r && |r| < |name| && name == name[..|name| - |r| - 1] + "\\" + r
    ensures (|name| == 0 || '\\' !in name[1..]) ==> r == name
  {
    match LastIndexOf(name, '\\')
    case None => name
    case Some(p) =>
      if p == 0 then
        assert '\\' !in name[1..];
        name
      else
        assert name[p + 1..] == name[1..][p..];
        assert name == name[..p] + "\\" + name[p + 1..];
        name[p + 1..]
  }

  /** The `typeAlias` table: Doctrine type names mapped to PHP types. */
  const TypeAlias: map<string, string> := map[
    "datetimetz" := "\\DateTime",
    "datetime" := "\\DateTime",
    "date" := "\\DateTime",
    "time" := "\\DateTime",
    "object" := "\\stdClass",
    "bigint" := "integer",
    "smallint" := "integer",
    "text" := "string",
    "blob" := "string",
    "decimal" := "float",
    "json_array" := "array",
    "simple_array" := "array"]

  /** `getType`: the alias of a Doctrine type, or the type itself. */
  function GetType(t: string): (r: string)
    ensures t in TypeAlias ==> r == TypeAlias[t]
    ensures t !in TypeAlias ==> r == t
  {
    if t in TypeAlias then TypeAlias[t] else t
  }

  /** `methodTypeHint`: the array form of `str_replace` applies each pair in
      turn to the result of the previous one. */
  function MethodTypeHint(s: string): string {
    ReplaceAll(ReplaceAll(ReplaceAll(ReplaceAll(s, "boolean", "bool"), "integer", "int"), "uuid", "string"), "guid", "string")
  }

  /** `methodTypeHint` leaves a hint that names none of the four types alone. */
  lemma MethodTypeHintIdentity(s: string)
    requires !Contains(s, "boolean") && !Contains(s, "integer") && !Contains(s, "uuid") && !Contains(s, "guid")
    ensures MethodTypeHint(s) == s
  {
    ReplaceAbsent(s, "boolean", "bool");
    ReplaceAbsent(s, "integer", "int");
    ReplaceAbsent(s, "uuid", "string");
    ReplaceAbsent(s, "guid", "string");
  }

  /** Mapping a type twice is mapping it once: no PHP type in the table is
      itself a Doctrine type name in it. */
  lemma GetTypeIdempotent(t: string)
    ensures GetType(t) == t || GetType(t) in TypeAlias.Values
    ensures GetType(GetType(t)) == GetType(t)
  {
    if t in TypeAlias {
      assert GetType(t) in TypeAlias.Values;
      assert forall v :: v in TypeAlias.Values ==>
        v in {"\\DateTime", "\\stdClass", "integer", "string", "float", "array"};
    }
  }

  /** A hint that is already a PHP type name passes through unchanged. */
  lemma PhpHintUnchanged(h: string)
    requires h == "bool " || h == "int " || h == "string "
    ensures MethodTypeHint(h) == h
  {
    MissingCharNotContained(h, "boolean", 'a');
    MissingCharNotContained(h, "integer", 'e');
    MissingCharNotContained(h, "uuid", 'u');
    MissingCharNotContained(h, "guid", 'u');
    MethodTypeHintIdentity(h);
  }

  /** `methodTypeHint` as its four replacements in turn. */
  lemma HintChain(s: string, a: string, b: string, c: string, d: string)
    requires ReplaceAll(s, "boolean", "bool") == a
    requires ReplaceAll(a, "integer", "int") == b
    requires ReplaceAll(b, "uuid", "string") == c
    requires ReplaceAll(c, "guid", "string") == d
    ensures MethodTypeHint(s) == d
  {
  }

  /** A word followed by a space is replaced by its rename and the space. */
  lemma LeadingWord(w: string, rep: string)
    requires |w| > 1
    ensures ReplaceAll(w + " ", w, rep) == rep + " "
  {
    ReplaceLeading(w, " ", rep);
    ShorterNotContained(" ", w);
    ReplaceAbsent(" ", w, rep);
  }

  /** A replacement whose search string holds a character the text lacks. */
  lemma Untouched(s: string, pat: string, rep: string, c: char)
    requires c in pat && c !in s
    ensures ReplaceAll(s, pat, rep) == s
  {
    MissingCharNotContained(s, pat, c);
    ReplaceAbsent(s, pat, rep);
  }

  lemma RenameBoolean()
    ensures MethodTypeHint("boolean ") == "bool "
  {
    LeadingWord("boolean", "bool");
    assert "boolean" + " " == "boolean ";
    assert "bool" + " " == "bool ";
    Untouched("bool ", "integer", "int", 'e');
    Untouched("bool ", "uuid", "string", 'u');
    Untouched("bool ", "guid", "string", 'u');
    HintChain("boolean ", "bool ", "bool ", "bool ", "bool ");
  }

  lemma RenameInteger()
    ensures MethodTypeHint("integer ") == "int "
  {
    Untouched("integer ", "boolean", "bool", 'b');
    LeadingWord("integer", "int");
    assert "integer" + " " == "integer ";
    assert "int" + " " == "int ";
    Untouched("int ", "uuid", "string", 'u');
    Untouched("int ", "guid", "string", 'u');
    HintChain("integer ", "integer ", "int ", "int ", "int ");
  }

  lemma RenameUuid()
    ensures MethodTypeHint("uuid ") == "string "
  {
    Untouched("uuid ", "boolean", "bool", 'b');
    Untouched("uuid ", "integer", "int", 'e');
    LeadingWord("uuid", "string");
    assert "uuid" + " " == "uuid ";
    assert "string" + " " == "string ";
    Untouched("string ", "guid", "string", 'u');
    HintChain("uuid ", "uuid ", "uuid ", "string ", "string ");
  }

  lemma RenameGuid()
    ensures MethodTypeHint("guid ") == "string "
  {
    Untouched("guid ", "boolean", "bool", 'b');
    Untouched("guid ", "integer", "int", 'e');
    assert !Contains("guid ", "uuid") by {
      assert "guid "[1..] == "uid " && "uid "[1..] == "id ";
      ShorterNotContained("id ", "uuid");
    }
    ReplaceAbsent("guid ", "uuid", "string");
    LeadingWord("guid", "string");
    assert "guid" + " " == "guid ";
    assert "string" + " " == "string ";
    HintChain("guid ", "guid ", "guid ", "guid ", "string ");
  }

  /** The four renamings `methodTypeHint` performs, on the hints `getType`
      and the mapping types produce: Doctrine's `boolean`, `integer`,
      `bigint` and `smallint` become PHP's `bool` and `int`, and `uuid` and
      `guid` become `string`; an empty hint stays empty. */
  lemma MethodTypeHintRenames()
    ensures MethodTypeHint("boolean ") == "bool "
    ensures MethodTypeHint("integer ") == "int "
    ensures MethodTypeHint(GetType("bigint") + " ") == "int "
    ensures MethodTypeHint(GetType("smallint") + " ") == "int "
    ensures MethodTypeHint("uuid ") == "string "
    ensures MethodTypeHint("guid ") == "string "
    ensures MethodTypeHint("") == ""
  {
    RenameBoolean();
    RenameInteger();
    WideIntegers();
    RenameUuid();
    RenameGuid();
    MethodTypeHintIdentity("");
  }

  /** `bigint` and `smallint` are hinted as Doctrine's `integer`. */
  lemma WideIntegers()
    ensures GetType("bigint") + " " == "integer "
    ensures GetType("smallint") + " " == "integer "
  {
    assert GetType("bigint") == "integer";
    assert GetType("smallint") == "integer";
  }

  /** `prefixCodeWithSpaces` with one level: `explode` into lines, indent
      each, `implode` again. */
  function PrefixCodeWithSpaces(code: string, spaces: string): string {
    var lines := Split(code, '\n');
    Join(seq(|lines|, k requires 0 <= k < |lines| => spaces + lines[k]), "\n")
  }

  /** Indenting keeps the number of lines and prefixes every line, provided
      the indentation itself is on one line. */
  lemma PrefixKeepsLines(code: string, spaces: string)
    requires '\n' !in spaces
    ensures var r := PrefixCodeWithSpaces(code, spaces);
      && |Split(r, '\n')| == |Split(code, '\n')|
      && forall k :: 0 <= k < |Split(r, '\n')| ==> Split(r, '\n')[k] == spaces + Split(code, '\n')[k]
  {
    var lines := Split(code, '\n');
    var indented := seq(|lines|, k requires 0 <= k < |lines| => spaces + lines[k]);
    SplitPartsClean(code, '\n');
    assert forall k :: 0 <= k < |indented| ==> '\n' !in indented[k];
    SplitJoin(indented, '\n');
  }

  /** `hasMethod`: the class, as loaded, has the method. PHP method names are
      case-insensitive, so the comparison is on lower-cased names. */
  predicate HasMethod(existing: set<string>, name: string) {
    exists m :: m in existing && Lower(m) == Lower(name)
  }

  // ----- the order of the stubs -----

  /** One `generateEntityStubMethod` call: the stub kind, the field, the type
      hint and the default value. */
  datatype StubRequest = StubRequest(kind: StubKind, fieldName: string, typeHint: string, defaultValue: Option<string>)

  const ArrayCollection: string := "Doctrine\\Common\\Collections\\ArrayCollection"

  /** A field's stubs: a setter (unless it is an id with a generator), then
      a getter. */
  function FieldRequests(generatorType: GeneratorType, f: FieldMapping): (r: seq<StubRequest>)
    ensures 1 <= |r| <= 2
    ensures r[|r| - 1] == StubRequest(Get, f.fieldName, f.fieldType, None)
    ensures |r| == 2 <==> !f.id || generatorType == NoGenerator
    ensures |r| == 2 ==> r[0] == StubRequest(Set, f.fieldName, f.fieldType, None)
  {
    var setter := if !f.id || generatorType == NoGenerator then [StubRequest(Set, f.fieldName, f.fieldType, None)] else [];
    setter + [StubRequest(Get, f.fieldName, f.fieldType, None)]
  }

  /** An association's stubs: `set`/`get` for a to-one side, whose setter
      defaults to null exactly when the association is nullable;
      `add`/`remove`/`get` for a to-many side, the getter typed as an
      ArrayCollection. */
  function AssociationRequests(a: AssociationMapping): (r: seq<StubRequest>)
    ensures a.kind.IsToOne() ==>
      && |r| == 2
      && r[0].kind == Set && r[1].kind == Get
      && r[0].typeHint == a.targetEntity && r[1].typeHint == a.targetEntity
      && (r[0].defaultValue == Some("null") <==> IsAssociationNullable(a))
      && (r[0].defaultValue != Some("null") ==> r[0].defaultValue == None)
      && r[1].defaultValue == None
    ensures a.kind.IsToMany() ==>
      && |r| == 3
      && r[0].kind == Add && r[1].kind == Remove && r[2].kind == Get
      && r[0].typeHint == a.targetEntity && r[1].typeHint == a.targetEntity
      && r[2].typeHint == ArrayCollection
      && r[0].defaultValue == None && r[1].defaultValue == None && r[2].defaultValue == None
    ensures forall q :: q in r ==> q.fieldName == a.fieldName
  {
    if a.kind.IsToOne() then
      var default := if IsAssociationNullable(a) then Some("null") else None;
      [StubRequest(Set, a.fieldName, a.targetEntity, default), StubRequest(Get, a.fieldName, a.targetEntity, None)]
    else
      [StubRequest(Add, a.fieldName, a.targetEntity, None),
       StubRequest(Remove, a.fieldName, a.targetEntity, None),
       StubRequest(Get, a.fieldName, ArrayCollection, None)]
  }

  function FieldPlan(generatorType: GeneratorType, fields: seq<FieldMapping>): seq<StubRequest> {
    if |fields| == 0 then [] else FieldRequests(generatorType, fields[0]) + FieldPlan(generatorType, fields[1..])
  }

  function AssociationPlan(associations: seq<AssociationMapping>): seq<StubRequest> {
    if |associations| == 0 then [] else AssociationRequests(associations[0]) + AssociationPlan(associations[1..])
  }

  /** The calls `generateEntityStubMethods` makes, in order: all fields,
      then all associations. */
  function StubPlan(md: ClassMetadata): seq<StubRequest> {
    FieldPlan(md.generatorType, md.fields) + AssociationPlan(md.associations)
  }

  // ----- one stub -----

  /** The method a stub defines: kind + classify(field), singularised for
      `add` and `remove`. */
  function MethodName(g: Generator, kind: StubKind, fieldName: string): string {
    var name := kind.Prefix() + g.inflector.classify(fieldName);
    if kind.IsCollectionMutator() then g.inflector.singularize(name) else name
  }

  function FindAssociation(associations: seq<AssociationMapping>, fieldName: string): (r: Option<AssociationMapping>)
    ensures r.Some? ==> r.value in associations && r.value.fieldName == fieldName
    ensures r.None? ==> forall a :: a in associations ==> a.fieldName != fieldName
  {
    if |associations| == 0 then None
    else if associations[0].fieldName == fieldName then Some(associations[0])
    else FindAssociation(associations[1..], fieldName)
  }

  /** `associationMappings[f]['isOwningSide']`; a missing entry reads as
      null, which is falsy. */
  predicate IsOwningSide(md: ClassMetadata, fieldName: string) {
    match FindAssociation(md.associations, fieldName)
    case Some(a) => a.isOwningSide
    case None => false
  }

  predicate IsManyToMany(md: ClassMetadata, fieldName: string) {
    match FindAssociation(md.associations, fieldName)
    case Some(a) => a.kind == ManyToMany
    case None => false
  }

  /** The `update_owning_side` text: on the inverse side, `add` registers
      this entity with the added one and `remove` unregisters it. */
  function OwningSideUpdate(g: Generator, md: ClassMetadata, q: StubRequest, variableName: string): string {
    if q.kind.IsCollectionMutator() && Truthy(q.typeHint) && !IsOwningSide(md, q.fieldName) then
      var manyToMany := IsManyToMany(md, q.fieldName);
      var verb := if q.kind.Add? then (if manyToMany then "add" else "set") else (if manyToMany then "remove" else "set");
      var argument := if q.kind.Remove? && !manyToMany then "null" else "$this";
      g.Indent() + "$" + variableName + "->" + verb + g.inflector.classify(GetClassName(md.name)) + "(" + argument + ");\n"
    else ""
  }

  /** The template variables of one stub. */
  function StubVarsFor(g: Generator, md: ClassMetadata, q: StubRequest, methodName: string): (r: StubVars)
    ensures r.methodName == methodName && r.fieldName == q.fieldName && r.spaces == "    "
    ensures r.entity == GetClassName(md.name)
    ensures r.variableDefault == (if q.defaultValue.Some? then " = " + q.defaultValue.value else "")
    ensures r.updateOwningSide == OwningSideUpdate(g, md, q, r.variableName)
    ensures !Truthy(q.typeHint) ==> r.methodTypeHint == "" && r.variableType == ""
    ensures Truthy(q.typeHint) && g.isDbalType(q.typeHint) ==>
      && r.methodTypeHint == MethodTypeHint(GetType(q.typeHint) + " ")
      && r.variableType == r.methodTypeHint
    ensures Truthy(q.typeHint) && !g.isDbalType(q.typeHint) ==>
      && r.methodTypeHint == "\\" + q.typeHint + " "
      && r.variableType == MethodTypeHint("\\" + TrimLeftChar(GetType(q.typeHint) + " ", '\\'))
    ensures q.kind.IsCollectionMutator() && Truthy(q.typeHint) ==>
      r.variableName == g.inflector.camelize(LastSegment(q.typeHint))
    ensures !q.kind.IsCollectionMutator() || !Truthy(q.typeHint) ==>
      r.variableName == g.inflector.camelize(q.fieldName)
  {
    var hint := q.typeHint;
    var declared := if Truthy(hint) then GetType(hint) + " " else "";
    var foreign := Truthy(hint) && !g.isDbalType(hint);
    var variableType := if foreign then "\\" + TrimLeftChar(declared, '\\') else declared;
    var methodTypeHint := if foreign then "\\" + hint + " " else MethodTypeHint(declared);
    var variableName :=
      if q.kind.IsCollectionMutator() && Truthy(hint) then g.inflector.camelize(LastSegment(hint))
      else g.inflector.camelize(q.fieldName);
    var default := match q.defaultValue case Some(d) => " = " + d case None => "";
    assert !Truthy(hint) ==> MethodTypeHint(variableType) == "" by {
      MethodTypeHintIdentity("");
    }
    StubVars(methodTypeHint, MethodTypeHint(variableType), variableName, methodName, q.fieldName,
             default, GetClassName(md.name), OwningSideUpdate(g, md, q, variableName), "    ")
  }

  /** The rendered, indented stub. */
  function RenderStub(g: Generator, md: ClassMetadata, q: StubRequest): string {
    var vars := StubVarsFor(g, md, q, MethodName(g, q.kind, q.fieldName));
    PrefixCodeWithSpaces(g.templates.stub(q.kind, vars), g.Indent())
  }

  /** `generateEntityStubMethod`: nothing when the class already has the
      method, otherwise the rendered stub. */
  function GenerateEntityStubMethod(g: Generator, existing: set<string>, md: ClassMetadata, q: StubRequest)
    : (r: Option<string>)
    ensures r.None? <==> HasMethod(existing, MethodName(g, q.kind, q.fieldName))
    ensures r.Some? ==> r.value == RenderStub(g, md, q)
    ensures r.Some? ==>
      var out := g.templates.stub(q.kind, StubVarsFor(g, md, q, MethodName(g, q.kind, q.fieldName)));
      && |Split(r.value, '\n')| == |Split(out, '\n')|
      && forall k :: 0 <= k < |Split(r.value, '\n')| ==> Split(r.value, '\n')[k] == g.Indent() + Split(out, '\n')[k]
  {
    assert '\n' !in g.Indent();
    PrefixKeepsLines(g.templates.stub(q.kind, StubVarsFor(g, md, q, MethodName(g, q.kind, q.fieldName))), g.Indent());
    if HasMethod(existing, MethodName(g, q.kind, q.fieldName)) then None else Some(RenderStub(g, md, q))
  }

  /** The requests whose method the class does not have yet. */
  function MissingRequests(g: Generator, existing: set<string>, plan: seq<StubRequest>): (r: seq<StubRequest>)
    ensures forall q :: q in r <==> q in plan && !HasMethod(existing, MethodName(g, q.kind, q.fieldName))
  {
    if |plan| == 0 then []
    else
      var rest := MissingRequests(g, existing, plan[1..]);
      if HasMethod(existing, MethodName(g, plan[0].kind, plan[0].fieldName)) then rest else [plan[0]] + rest
  }

  /** The fragments list `generateEntityStubMethods` builds, one call per
      request. */
  function StubFragments(g: Generator, existing: set<string>, md: ClassMetadata, plan: seq<StubRequest>)
    : seq<string>
  {
    if |plan| == 0 then []
    else
      var rest := StubFragments(g, existing, md, plan[1..]);
      match GenerateEntityStubMethod(g, existing, md, plan[0])
      case Some(f) => [f] + rest
      case None => rest
  }

  /** The fragments are exactly the rendered stubs of the requests whose
      method the class does not have, in plan order: an existing method
      never gets a second definition. */
  lemma {:induction false} StubFragmentsAreMissingStubs(g: Generator, existing: set<string>, md: ClassMetadata, plan: seq<StubRequest>)
    ensures var r := StubFragments(g, existing, md, plan);
      && |r| == |MissingRequests(g, existing, plan)|
      && forall k :: 0 <= k < |r| ==> r[k] == RenderStub(g, md, MissingRequests(g, existing, plan)[k])
  {
    if |plan| > 0 {
      var q := plan[0];
      StubFragmentsAreMissingStubs(g, existing, md, plan[1..]);
      StubFragmentsStep(g, existing, md, plan);
      MissingRequestsStep(g, existing, plan);
      if !HasMethod(existing, MethodName(g, q.kind, q.fieldName)) {
        var render := (p: StubRequest) => RenderStub(g, md, p);
        ConsPointwise(render, q, MissingRequests(g, existing, plan[1..]), StubFragments(g, existing, md, plan[1..]));
      }
    }
  }

  /** One step of the fragments: the first request's stub, if missing, then the rest. */
  lemma StubFragmentsStep(g: Generator, existing: set<string>, md: ClassMetadata, plan: seq<StubRequest>)
    requires |plan| > 0
    ensures StubFragments(g, existing, md, plan) ==
      (if HasMethod(existing, MethodName(g, plan[0].kind, plan[0].fieldName)) then []
       else [RenderStub(g, md, plan[0])]) + StubFragments(g, existing, md, plan[1..])
  {
    var rest := StubFragments(g, existing, md, plan[1..]);
    if HasMethod(existing, MethodName(g, plan[0].kind, plan[0].fieldName)) {
      assert [] + rest == rest;
    }
  }

  /** One step of the missing requests. */
  lemma MissingRequestsStep(g: Generator, existing: set<string>, plan: seq<StubRequest>)
    requires |plan| > 0
    ensures MissingRequests(g, existing, plan) ==
      (if HasMethod(existing, MethodName(g, plan[0].kind, plan[0].fieldName)) then [] else [plan[0]])
      + MissingRequests(g, existing, plan[1..])
  {
    var rest := MissingRequests(g, existing, plan[1..]);
    if HasMethod(existing, MethodName(g, plan[0].kind, plan[0].fieldName)) {
      assert [] + rest == rest;
    }
  }

  /** Prepending an element and its image keeps a pointwise agreement. */
  lemma ConsPointwise<A, B>(f: A -> B, x: A, xs: seq<A>, ys: seq<B>)
    requires |ys| == |xs|
    requires forall k :: 0 <= k < |ys| ==> ys[k] == f(xs[k])
    ensures forall k :: 0 <= k < |ys| + 1 ==> ([f(x)] + ys)[k] == f(([x] + xs)[k])
  {
    forall k | 0 <= k < |ys| + 1
      ensures ([f(x)] + ys)[k] == f(([x] + xs)[k])
    {
      if k > 0 {
        assert ([f(x)] + ys)[k] == ys[k - 1];
        assert ([x] + xs)[k] == xs[k - 1];
      }
    }
  }

  /** `generateEntityStubMethods`: the fragments separated by blank lines. */
  function GenerateEntityStubMethods(g: Generator, existing: set<string>, md: ClassMetadata): string {
    Join(StubFragments(g, existing, md, StubPlan(md)), "\n\n")
  }

  // ----- the constructor -----

  /** The to-many association fields, in mapping order. */
  function ToManyFields(associations: seq<AssociationMapping>): (r: seq<string>)
    ensures |r| <= |associations|
    ensures forall n :: n in r <==> exists a :: a in associations && a.kind.IsToMany() && a.fieldName == n
  {
    if |associations| == 0 then []
    else
      var rest := ToManyFields(associations[1..]);
      assert forall a :: a in associations <==> a == associations[0] || a in associations[1..];
      if associations[0].kind.IsToMany() then [associations[0].fieldName] + rest else rest
  }

  /** The to-many fields come in mapping order, one per to-many mapping:
      the selection distributes over concatenation. */
  lemma {:induction false} ToManyFieldsInOrder(a: seq<AssociationMapping>, b: seq<AssociationMapping>)
    ensures ToManyFields(a + b) == ToManyFields(a) + ToManyFields(b)
    ensures forall m :: (ToManyFields([m]) == if m.kind.IsToMany() then [m.fieldName] else [])
    decreases |a|
  {
    if |a| == 0 {
      assert a + b == b;
    } else {
      assert (a + b)[1..] == a[1..] + b;
      ToManyFieldsInOrder(a[1..], b);
    }
  }

  lemma ToManyFieldsEmpty(associations: seq<AssociationMapping>)
    ensures |ToManyFields(associations)| == 0 <==> forall a :: a in associations ==> !a.kind.IsToMany()
  {
    var r := ToManyFields(associations);
    if |r| > 0 {
      assert r[0] in r;
    }
    if exists a :: a in associations && a.kind.IsToMany() {
      var a :| a in associations && a.kind.IsToMany();
      assert a.fieldName in r;
    }
  }

  /** The line that initialises one collection property. */
  function CollectionInit(fieldName: string): string {
    "$this->" + fieldName + " = new \\Doctrine\\Common\\Collections\\ArrayCollection();"
  }

  /** `generateEntityConstructor`: empty when the class has a constructor or
      no to-many association, otherwise the rendered constructor with one
      initialisation line per to-many association, in mapping order. */
  function GenerateEntityConstructor(g: Generator, existing: set<string>, md: ClassMetadata): (r: string)
    ensures HasMethod(existing, "__construct") ==> r == ""
    ensures (forall a :: a in md.associations ==> !a.kind.IsToMany()) ==> r == ""
    ensures !HasMethod(existing, "__construct") && (exists a :: a in md.associations && a.kind.IsToMany()) ==>
      var fields := ToManyFields(md.associations);
      r == PrefixCodeWithSpaces(
        g.templates.constructorMethod(seq(|fields|, k requires 0 <= k < |fields| => CollectionInit(fields[k])), g.Indent()),
        g.Indent())
  {
    if HasMethod(existing, "__construct") then ""
    else
      var fields := ToManyFields(md.associations);
      var collections := seq(|fields|, k requires 0 <= k < |fields| => CollectionInit(fields[k]));
      ToManyFieldsEmpty(md.associations);
      if |collections| > 0 then
        PrefixCodeWithSpaces(g.templates.constructorMethod(collections, g.Indent()), g.Indent())
      else ""
  }

  // ----- the body -----

  /** `generateEntityBody`: drops the mappings without a declared property,
      then puts the constructor before the stubs, one newline between. */
  function GenerateEntityBody(g: Generator, index: Scanner.Index, existing: set<string>, md: ClassMetadata): string {
    var kept := FilterMetadata(index, md);
    var stubs := GenerateEntityStubMethods(g, existing, kept);
    var construct := GenerateEntityConstructor(g, existing, kept);
    if Truthy(stubs) then construct + "\n" + stubs else construct
  }

  // ----- properties of the synthesis -----

  lemma {:induction false} FieldPlanNames(generatorType: GeneratorType, fields: seq<FieldMapping>)
    ensures forall q :: q in FieldPlan(generatorType, fields) ==> exists f :: f in fields && f.fieldName == q.fieldName
    decreases |fields|
  {
    if |fields| > 0 {
      FieldPlanNames(generatorType, fields[1..]);
      forall q | q in FieldPlan(generatorType, fields)
        ensures exists f :: f in fields && f.fieldName == q.fieldName
      {
        if q in FieldRequests(generatorType, fields[0]) {
          assert fields[0] in fields;
        } else {
          assert q in FieldPlan(generatorType, fields[1..]);
          var f :| f in fields[1..] && f.fieldName == q.fieldName;
          assert f in fields;
        }
      }
    }
  }

  lemma {:induction false} AssociationPlanNames(associations: seq<AssociationMapping>)
    ensures forall q :: q in AssociationPlan(associations) ==>
      exists a :: a in associations && a.fieldName == q.fieldName
    decreases |associations|
  {
    if |associations| > 0 {
      AssociationPlanNames(associations[1..]);
      forall q | q in AssociationPlan(associations)
        ensures exists a :: a in associations && a.fieldName == q.fieldName
      {
        if q in AssociationRequests(associations[0]) {
          assert associations[0] in associations;
        } else {
          assert q in AssociationPlan(associations[1..]);
          var a :| a in associations[1..] && a.fieldName == q.fieldName;
          assert a in associations;
        }
      }
    }
  }

  /** Schema drift: after filtering, every stub is for a declared property
      of the class, and a class the scan never saw gets no stub and no
      constructor, so its generated body is empty. */
  lemma SchemaDriftIsDropped(g: Generator, index: Scanner.Index, existing: set<string>, md: ClassMetadata)
    ensures forall q :: q in StubPlan(FilterMetadata(index, md)) ==> Scanner.HasProperty(index, md.name, q.fieldName)
    ensures md.name !in index ==> StubPlan(FilterMetadata(index, md)) == []
    ensures md.name !in index ==> GenerateEntityBody(g, index, existing, md) == ""
  {
    var kept := FilterMetadata(index, md);
    FieldPlanNames(kept.generatorType, kept.fields);
    AssociationPlanNames(kept.associations);
    if md.name !in index {
      assert StubFragments(g, existing, kept, StubPlan(kept)) == [];
    }
  }

  /** Regeneration adds nothing to a class that already has every method the
      plan asks for and a constructor: the generated body is empty. */
  lemma RegenerationAddsNothing(g: Generator, index: Scanner.Index, existing: set<string>, md: ClassMetadata)
    requires forall q :: q in StubPlan(FilterMetadata(index, md)) ==> HasMethod(existing, MethodName(g, q.kind, q.fieldName))
    requires HasMethod(existing, "__construct")
    ensures GenerateEntityBody(g, index, existing, md) == ""
  {
    var kept := FilterMetadata(index, md);
    var missing := MissingRequests(g, existing, StubPlan(kept));
    if |missing| > 0 {
      assert missing[0] in missing;
    }
    StubFragmentsAreMissingStubs(g, existing, kept, StubPlan(kept));
  }

  /** On the inverse side the generated `add` and `remove` keep the owning
      side in step: in a many-to-many, `add<Entity>($this)` and
      `remove<Entity>($this)`; otherwise both call `set<Entity>`, with
      `$this` to register and `null` to unregister. */
  lemma InverseSideCallbacks(g: Generator, md: ClassMetadata, fieldName: string, target: string, v: string)
    requires Truthy(target) && !IsOwningSide(md, fieldName)
    ensures
      var add := OwningSideUpdate(g, md, StubRequest(Add, fieldName, target, None), v);
      var remove := OwningSideUpdate(g, md, StubRequest(Remove, fieldName, target, None), v);
      var call := g.Indent() + "$" + v + "->";
      var entity := g.inflector.classify(GetClassName(md.name));
      && (IsManyToMany(md, fieldName) ==>
            add == call + "add" + entity + "($this);\n" && remove == call + "remove" + entity + "($this);\n")
      && (!IsManyToMany(md, fieldName) ==>
            add == call + "set" + entity + "($this);\n" && remove == call + "set" + entity + "(null);\n")
  {
  }

  /** The owning side, getters and setters get no callback text. */
  lemma NoCallbackOffInverseMutators(g: Generator, md: ClassMetadata, q: StubRequest, v: string)
    requires IsOwningSide(md, q.fieldName) || !q.kind.IsCollectionMutator()
    ensures OwningSideUpdate(g, md, q, v) == ""
  {
  }

  /** The example entity: an auto-generated `id`, a `name` and an owning
      to-many `tags`. */
  function ExampleMetadata(): ClassMetadata {
    ClassMetadata("App\\Entity\\Post", "App\\Entity", Auto,
      [FieldMapping("id", "integer", true), FieldMapping("name", "string", false)],
      [AssociationMapping("tags", "App\\Entity\\Tag", ManyToMany, true, false, [])])
  }

  /** The example entity gets, in order, the `id` getter, the `name` setter
      and getter, then `add`/`remove`/`get` for `tags`. */
  lemma ExamplePlan()
    ensures StubPlan(ExampleMetadata()) == [
      StubRequest(Get, "id", "integer", None),
      StubRequest(Set, "name", "string", None),
      StubRequest(Get, "name", "string", None),
      StubRequest(Add, "tags", "App\\Entity\\Tag", None),
      StubRequest(Remove, "tags", "App\\Entity\\Tag", None),
      StubRequest(Get, "tags", ArrayCollection, None)]
  {
    var md := ExampleMetadata();
    assert FieldPlan(Auto, md.fields) == [
      StubRequest(Get, "id", "integer", None),
      StubRequest(Set, "name", "string", None),
      StubRequest(Get, "name", "string", None)];
    assert AssociationPlan(md.associations) == [
      StubRequest(Add, "tags", "App\\Entity\\Tag", None),
      StubRequest(Remove, "tags", "App\\Entity\\Tag", None),
      StubRequest(Get, "tags", ArrayCollection, None)];
  }

  /** In a class with no methods yet, the example entity gets its six
      planned stubs, each rendered in plan order. */
  lemma ExampleFragments(g: Generator)
    ensures var md := ExampleMetadata();
            var plan := StubPlan(md);
            var r := StubFragments(g, {}, md, plan);
            |plan| == 6 && |r| == 6 && forall k :: 0 <= k < 6 ==> r[k] == RenderStub(g, md, plan[k])
  {
    var md := ExampleMetadata();
    var plan := StubPlan(md);
    ExamplePlan();
    NothingMissingFromEmptyClass(g, plan);
    StubFragmentsAreMissingStubs(g, {}, md, plan);
  }

  /** ... and a constructor that initialises `tags`. */
  lemma ExampleConstructor(g: Generator)
    ensures GenerateEntityConstructor(g, {}, ExampleMetadata())
      == PrefixCodeWithSpaces(g.templates.constructorMethod([CollectionInit("tags")], g.Indent()), g.Indent())
  {
    var md := ExampleMetadata();
    assert !HasMethod({}, "__construct");
    assert ToManyFields(md.associations) == ["tags"];
    var fields := ToManyFields(md.associations);
    assert seq(|fields|, k requires 0 <= k < |fields| => CollectionInit(fields[k])) == [CollectionInit("tags")];
  }

  lemma {:induction false} NothingMissingFromEmptyClass(g: Generator, plan: seq<StubRequest>)
    ensures MissingRequests(g, {}, plan) == plan
    decreases |plan|
  {
    if |plan| > 0 {
      NothingMissingFromEmptyClass(g, plan[1..]);
      assert [plan[0]] + plan[1..] == plan;
    }
  }
}

=== FILE: text.dfy ===
/** The PHP string primitives the generator relies on (`explode`, `implode`,
    `trim`, `ltrim`, `str_replace`, `strstr`, `mb_strrpos`), written over
    `seq<char>`, with the facts about them that the rest of the model uses. */
module Text {

  import opened Optional

  /** PHP truthiness of a string: only "" and "0" are falsy. */
  predicate Truthy(s: string) {
    s != "" && s != "0"
  }

  /** The characters `trim` strips by default: " \t\n\r\0\x0B". */
  predicate IsTrimmed(c: char) {
    c == ' ' || c == '\t' || c == '\n' || c == '\r' || c == '\0' || c == '\U{0B}'
  }

  /** `\s` of a PCRE pattern without the `u` flag. */
  predicate IsRegexSpace(c: char) {
    c == ' ' || c == '\t' || c == '\n' || c == '\U{0B}' || c == '\U{0C}' || c == '\r'
  }

  predicate StartsWith(s: string, p: string) {
    |p| <= |s| && s[..|p|] == p
  }

  predicate EndsWith(s: string, p: string) {
    |p| <= |s| && s[|s| - |p|..] == p
  }

  /** `strstr(s, sub) !== false`: `sub` occurs somewhere in `s`. */
  predicate Contains(s: string, sub: string)
    decreases |s|
  {
    StartsWith(s, sub) || (|s| > 0 && Contains(s[1..], sub))
  }

  /** Every slice of `s` occurs in `s`. */
  lemma {:induction false} ContainsSlice(s: string, a: nat, b: nat)
    requires a <= b <= |s|
    ensures Contains(s, s[a..b])
    decreases a
  {
    if a > 0 {
      ContainsSlice(s[1..], a - 1, b - 1);
      assert s[1..][a - 1..b - 1] == s[a..b];
    }
  }

  /** What occurs in a suffix of `s` occurs in `s`. */
  lemma {:induction false} ContainsInSuffix(s: string, d: nat, x: string)
    requires d <= |s|
    requires Contains(s[d..], x)
    ensures Contains(s, x)
    decreases d
  {
    if d > 0 {
      assert s[1..][d - 1..] == s[d..];
      ContainsInSuffix(s[1..], d - 1, x);
    }
  }

  /** What ends a string that occurs in `s` occurs in `s`. */
  lemma {:induction false} ContainsEndOf(s: string, m: string, x: string)
    requires Contains(s, m) && EndsWith(m, x)
    ensures Contains(s, x)
    decreases |s|
  {
    if StartsWith(s, m) {
      ContainsSlice(s, |m| - |x|, |m|);
      assert s[|m| - |x|..|m|] == m[|m| - |x|..];
    } else {
      ContainsEndOf(s[1..], m, x);
    }
  }

  lemma EndsWithTrans(s: string, m: string, x: string)
    requires EndsWith(s, m) && EndsWith(m, x)
    ensures EndsWith(s, x)
  {
    assert s[|s| - |x|..] == s[|s| - |m|..][|m| - |x|..];
  }

  /** A string does not occur in one that lacks one of its characters. */
  lemma {:induction false} MissingCharNotContained(s: string, x: string, c: char)
    requires c in x && c !in s
    ensures !Contains(s, x)
    decreases |s|
  {
    if |s| > 0 {
      MissingCharNotContained(s[1..], x, c);
    }
  }

  /** A string does not occur in a shorter one. */
  lemma {:induction false} ShorterNotContained(s: string, x: string)
    requires |s| < |x|
    ensures !Contains(s, x)
    decreases |s|
  {
    if |s| > 0 {
      ShorterNotContained(s[1..], x);
    }
  }

  /** `str_repeat(" ", n)`. */
  function Spaces(n: nat): (r: string)
    ensures |r| == n
    ensures forall k :: 0 <= k < n ==> r[k] == ' '
  {
    if n == 0 then "" else [' '] + Spaces(n - 1)
  }

  /** `ltrim(s, c)`: drops every leading `c`. */
  function TrimLeftChar(s: string, c: char): (r: string)
    ensures |r| <= |s| && r == s[|s| - |r|..]
    ensures |r| > 0 ==> r[0] != c
    ensures forall k :: 0 <= k < |s| - |r| ==> s[k] == c
    decreases |s|
  {
    if |s| > 0 && s[0] == c then TrimLeftChar(s[1..], c) else s
  }

  function TrimLeft(s: string): (r: string)
    ensures |r| <= |s| && r == s[|s| - |r|..]
    ensures |r| > 0 ==> !IsTrimmed(r[0])
    ensures forall k :: 0 <= k < |s| - |r| ==> IsTrimmed(s[k])
    decreases |s|
  {
    if |s| > 0 && IsTrimmed(s[0]) then TrimLeft(s[1..]) else s
  }

  function TrimRight(s: string): (r: string)
    ensures |r| <= |s| && r == s[..|r|]
    ensures |r| > 0 ==> !IsTrimmed(r[|r| - 1])
    ensures forall k :: |r| <= k < |s| ==> IsTrimmed(s[k])
    decreases |s|
  {
    if |s| > 0 && IsTrimmed(s[|s| - 1]) then TrimRight(s[..|s| - 1]) else s
  }

  /** `trim(s)`. */
  function Trim(s: string): string {
    TrimRight(TrimLeft(s))
  }

  /** `trim` leaves a string that neither starts nor ends with whitespace
      unchanged, and whatever it returns is such a string. */
  lemma TrimFixesClean(s: string)
    ensures (|s| == 0 || (!IsTrimmed(s[0]) && !IsTrimmed(s[|s| - 1]))) ==> Trim(s) == s
    ensures |Trim(s)| > 0 ==> !IsTrimmed(Trim(s)[0]) && !IsTrimmed(Trim(s)[|Trim(s)| - 1])
  {
    var l := TrimLeft(s);
    if |l| > 0 {
      var r := TrimRight(l);
      if |r| > 0 {
        assert r[0] == l[0];
      }
    }
  }

  /** `explode(sep, s)` for a one-character separator: never empty, and
      `explode(sep, "") == [""]`. */
  function Split(s: string, sep: char): (r: seq<string>)
    ensures |r| >= 1
    decreases |s|
  {
    if |s| == 0 then [""]
    else if s[0] == sep then [""] + Split(s[1..], sep)
    else
      var rest := Split(s[1..], sep);
      [[s[0]] + rest[0]] + rest[1..]
  }

  /** `implode(sep, parts)`. */
  function Join(parts: seq<string>, sep: string): string
    decreases |parts|
  {
    if |parts| == 0 then ""
    else if |parts| == 1 then parts[0]
    else parts[0] + sep + Join(parts[1..], sep)
  }

  lemma JoinCons(p: string, parts: seq<string>, sep: string)
    requires |parts| >= 1
    ensures Join([p] + parts, sep) == p + sep + Join(parts, sep)
  {
    assert ([p] + parts)[1..] == parts;
  }

  /** `implode` undoes `explode`. */
  lemma {:induction false} JoinSplit(s: string, sep: char)
    ensures Join(Split(s, sep), [sep]) == s
    decreases |s|
  {
    if |s| == 0 {
    } else if s[0] == sep {
      JoinSplit(s[1..], sep);
      JoinCons("", Split(s[1..], sep), [sep]);
      assert s == [sep] + s[1..];
    } else {
      var rest := Split(s[1..], sep);
      JoinSplit(s[1..], sep);
      if |rest| == 1 {
        assert s == [s[0]] + s[1..];
      } else {
        JoinCons([s[0]] + rest[0], rest[1..], [sep]);
        JoinCons(rest[0], rest[1..], [sep]);
        assert [rest[0]] + rest[1..] == rest;
        assert s == [s[0]] + s[1..];
      }
    }
  }

  lemma {:induction false} SplitNoSep(x: string, sep: char)
    requires sep !in x
    ensures Split(x, sep) == [x]
    decreases |x|
  {
    if |x| > 0 {
      assert x[0] != sep;
      SplitNoSep(x[1..], sep);
      assert [x[0]] + x[1..] == x;
    }
  }

  lemma {:induction false} SplitAfterPart(x: string, sep: char, y: string)
    requires sep !in x
    ensures Split(x + [sep] + y, sep) == [x] + Split(y, sep)
    decreases |x|
  {
    if |x| == 0 {
      assert x + [sep] + y == [sep] + y;
      assert ([sep] + y)[1..] == y;
    } else {
      assert (x + [sep] + y)[0] == x[0];
      assert (x + [sep] + y)[1..] == x[1..] + [sep] + y;
      SplitAfterPart(x[1..], sep, y);
      assert [x[0]] + x[1..] == x;
    }
  }

  /** `explode` undoes `implode` when no part holds the separator. */
  lemma {:induction false} SplitJoin(parts: seq<string>, sep: char)
    requires |parts| >= 1
    requires forall k :: 0 <= k < |parts| ==> sep !in parts[k]
    ensures Split(Join(parts, [sep]), sep) == parts
    decreases |parts|
  {
    if |parts| == 1 {
      SplitNoSep(parts[0], sep);
    } else {
      SplitJoin(parts[1..], sep);
      SplitAfterPart(parts[0], sep, Join(parts[1..], [sep]));
      assert [parts[0]] + parts[1..] == parts;
    }
  }

  /** `explode` over a separator occurrence splits into the two halves' parts. */
  lemma {:induction false} SplitAround(x: string, sep: char, y: string)
    ensures Split(x + [sep] + y, sep) == Split(x, sep) + Split(y, sep)
    decreases |x|
  {
    if |x| == 0 {
      assert x + [sep] + y == [sep] + y;
      assert ([sep] + y)[1..] == y;
    } else {
      assert (x + [sep] + y)[0] == x[0];
      assert (x + [sep] + y)[1..] == x[1..] + [sep] + y;
      SplitAround(x[1..], sep, y);
    }
  }

  /** `implode` over two non-empty runs of parts. */
  lemma {:induction false} JoinAppend(a: seq<string>, b: seq<string>, sep: string)
    requires |a| >= 1 && |b| >= 1
    ensures Join(a + b, sep) == Join(a, sep) + sep + Join(b, sep)
    decreases |a|
  {
    if |a| == 1 {
      JoinCons(a[0], b, sep);
      assert a + b == [a[0]] + b;
    } else {
      JoinAppend(a[1..], b, sep);
      assert (a + b)[1..] == a[1..] + b;
    }
  }

  /** A part that is itself an `implode` of parts can be flattened into them. */
  lemma JoinFlatten(a: seq<string>, b: seq<string>, c: seq<string>, sep: string)
    requires |b| >= 1
    ensures Join(a + [Join(b, sep)] + c, sep) == Join(a + b + c, sep)
  {
    var front, flat := [Join(b, sep)] + c, b + c;
    JoinFlattenFront(b, c, sep);
    assert a + [Join(b, sep)] + c == a + front;
    assert a + b + c == a + flat;
    JoinSameTail(a, front, flat, sep);
  }

  /** Parts that implode alike still do behind a common prefix. */
  lemma JoinSameTail(a: seq<string>, x: seq<string>, y: seq<string>, sep: string)
    requires |x| >= 1 && |y| >= 1
    requires Join(x, sep) == Join(y, sep)
    ensures Join(a + x, sep) == Join(a + y, sep)
  {
    if |a| >= 1 {
      JoinAppend(a, x, sep);
      JoinAppend(a, y, sep);
    } else {
      assert a + x == x && a + y == y;
    }
  }

  /** Flattening a leading implode. */
  lemma JoinFlattenFront(b: seq<string>, c: seq<string>, sep: string)
    requires |b| >= 1
    ensures Join([Join(b, sep)] + c, sep) == Join(b + c, sep)
  {
    if |c| >= 1 {
      JoinAppend([Join(b, sep)], c, sep);
      JoinAppend(b, c, sep);
    } else {
      assert [Join(b, sep)] + c == [Join(b, sep)];
      assert b + c == b;
    }
  }

  /** `end(explode('\\', s))`: the last namespace segment of a class name. */
  function LastSegment(s: string): string {
    var parts := Split(s, '\\');
    parts[|parts| - 1]
  }

  /** `implode('\\', array_slice(explode('\\', s), 0, -1))`: the namespace
      of a class name. */
  function NamespaceOf(s: string): string {
    var parts := Split(s, '\\');
    Join(parts[..|parts| - 1], "\\")
  }

  /** A qualified name is its namespace, a backslash and its last segment;
      an unqualified one is its own last segment in the empty namespace. */
  lemma NameDecomposition(s: string)
    ensures '\\' !in LastSegment(s)
    ensures '\\' in s ==> s == NamespaceOf(s) + "\\" + LastSegment(s)
    ensures '\\' !in s ==> NamespaceOf(s) == "" && LastSegment(s) == s
  {
    var parts := Split(s, '\\');
    SplitPartsClean(s, '\\');
    JoinSplit(s, '\\');
    if '\\' in s {
      if |parts| == 1 {
        assert false;
      }
      JoinLast(parts, "\\");
    } else {
      SplitNoSep(s, '\\');
    }
  }

  /** Qualifying a plain name with a namespace and splitting it again gives
      back both halves. */
  lemma QualifiedNameParts(ns: string, name: string)
    requires '\\' !in name
    ensures LastSegment(ns + "\\" + name) == name
    ensures NamespaceOf(ns + "\\" + name) == ns
  {
    assert ns + "\\" + name == ns + ['\\'] + name;
    SplitAround(ns, '\\', name);
    SplitNoSep(name, '\\');
    var parts := Split(ns + "\\" + name, '\\');
    assert parts[..|parts| - 1] == Split(ns, '\\');
    JoinSplit(ns, '\\');
  }

  /** A class name ends with its last segment. */
  lemma LastSegmentIsSuffix(s: string)
    ensures EndsWith(s, LastSegment(s))
  {
    NameDecomposition(s);
    if '\\' in s {
      var ns, last := NamespaceOf(s), LastSegment(s);
      assert s[|s| - |last|..] == (ns + "\\" + last)[|ns| + 1..];
    }
  }

  lemma {:induction false} SplitPartsClean(s: string, sep: char)
    ensures forall k :: 0 <= k < |Split(s, sep)| ==> sep !in Split(s, sep)[k]
    decreases |s|
  {
    if |s| > 0 {
      SplitPartsClean(s[1..], sep);
    }
  }

  /** Splitting off the last of at least two parts. */
  lemma JoinLast(parts: seq<string>, sep: string)
    requires |parts| >= 2
    ensures Join(parts, sep) == Join(parts[..|parts| - 1], sep) + sep + parts[|parts| - 1]
  {
    JoinSnoc(parts[..|parts| - 1], parts[|parts| - 1], sep);
    assert parts[..|parts| - 1] + [parts[|parts| - 1]] == parts;
  }

  lemma {:induction false} JoinSnoc(parts: seq<string>, last: string, sep: string)
    requires |parts| >= 1
    ensures Join(parts + [last], sep) == Join(parts, sep) + sep + last
    decreases |parts|
  {
    if |parts| == 1 {
      assert parts + [last] == [parts[0], last];
    } else {
      JoinSnoc(parts[1..], last, sep);
      assert (parts + [last])[1..] == parts[1..] + [last];
    }
  }

  /** `str_replace(pat, rep, s)` for one search string: left-to-right,
      non-overlapping; an empty search string is skipped, as PHP does. */
  function ReplaceAll(s: string, pat: string, rep: string): string
    decreases |s|
  {
    if |pat| == 0 || |s| == 0 then s
    else if StartsWith(s, pat) then rep + ReplaceAll(s[|pat|..], pat, rep)
    else [s[0]] + ReplaceAll(s[1..], pat, rep)
  }

  /** A leading occurrence of the search string is replaced. */
  lemma ReplaceLeading(pat: string, rest: string, rep: string)
    requires |pat| > 0
    ensures ReplaceAll(pat + rest, pat, rep) == rep + ReplaceAll(rest, pat, rep)
  {
    assert StartsWith(pat + rest, pat);
    assert (pat + rest)[|pat|..] == rest;
  }

  /** Text that cannot start an occurrence is copied through unchanged. */
  lemma {:induction false} ReplaceAfterPrefix(h: string, x: string, pat: string, rep: string)
    requires |pat| > 0 && pat[0] !in h
    ensures ReplaceAll(h + x, pat, rep) == h + ReplaceAll(x, pat, rep)
    decreases |h|
  {
    if |h| == 0 {
      assert h + x == x;
    } else {
      assert (h + x)[0] == h[0];
      assert (h + x)[0] != pat[0];
      assert (h + x)[1..] == h[1..] + x;
      ReplaceAfterPrefix(h[1..], x, pat, rep);
      assert [h[0]] + h[1..] == h;
    }
  }

  /** Replacing a string that does not occur changes nothing. */
  lemma {:induction false} ReplaceAbsent(s: string, pat: string, rep: string)
    requires !Contains(s, pat)
    ensures ReplaceAll(s, pat, rep) == s
    decreases |s|
  {
    if |pat| > 0 && |s| > 0 {
      ReplaceAbsent(s[1..], pat, rep);
      assert [s[0]] + s[1..] == s;
    }
  }

  /** Replacing a string by itself changes nothing. */
  lemma {:induction false} ReplaceSelf(s: string, pat: string)
    ensures ReplaceAll(s, pat, pat) == s
    decreases |s|
  {
    if |pat| > 0 && |s| > 0 {
      if StartsWith(s, pat) {
        ReplaceSelf(s[|pat|..], pat);
        assert s[..|pat|] + s[|pat|..] == s;
      } else {
        ReplaceSelf(s[1..], pat);
        assert [s[0]] + s[1..] == s;
      }
    }
  }

  /** `mb_strrpos(s, c)`: the index of the last `c`, or none. */
  function LastIndexOf(s: string, c: char): (r: Option<nat>)
    ensures r.None? <==> c !in s
    ensures r.Some? ==> r.value < |s| && s[r.value] == c && c !in s[r.value + 1..]
    decreases |s|
  {
    if |s| == 0 then None
    else if s[|s| - 1] == c then Some(|s| - 1)
    else
      var r := LastIndexOf(s[..|s| - 1], c);
      assert s == s[..|s| - 1] + [s[|s| - 1]];
      r
  }

  /** The index of the first `c`, or none. */
  function IndexOf(s: string, c: char): (r: Option<nat>)
    ensures r.None? <==> c !in s
    ensures r.Some? ==> r.value < |s| && s[r.value] == c && c !in s[..r.value]
    decreases |s|
  {
    if |s| == 0 then None
    else if s[0] == c then Some(0)
    else
      match IndexOf(s[1..], c)
      case None => None
      case Some(k) =>
        assert s[..k + 1] == [s[0]] + s[1..][..k];
        Some(k + 1)
  }

  /** ASCII lower-casing, as PHP applies to method names. */
  function Lower(s: string): (r: string)
    ensures |r| == |s|
  {
    seq(|s|, k requires 0 <= k < |s| => if 'A' <= s[k] <= 'Z' then (s[k] as int + 32) as char else s[k])
  }
}

=== FILE: uses.dfy ===
/** The import resolver of `Service/Uses.php`: reading the `use` statements
    of a class header into an ordered alias table, adding the classes the
    generated code names, printing the table back as a `use` block,
    replacing the header's `use` lines with it, and shortening the
    generated code's class names to their aliases. */
module Uses {

  import opened Optional
  import opened Text

  /** One import: `use symbol as alias;`. */
  datatype Use = Use(alias: string, symbol: string)

  /** A PHP array from alias to symbol, in insertion order. */
  type Table = seq<Use>

  /** `isset($uses[alias])`. */
  predicate HasAlias(t: Table, alias: string)
    decreases |t|
  {
    |t| > 0 && (t[0].alias == alias || HasAlias(t[1..], alias))
  }

  /** `in_array($symbol, $uses)`. */
  predicate HasSymbol(t: Table, symbol: string)
    decreases |t|
  {
    |t| > 0 && (t[0].symbol == symbol || HasSymbol(t[1..], symbol))
  }

  /** Aliases are keys: no two entries share one. */
  predicate UniqueAliases(t: Table)
    decreases |t|
  {
    |t| == 0 || (!HasAlias(t[1..], t[0].alias) && UniqueAliases(t[1..]))
  }

  /** Entry `k` is the first entry for `alias`. */
  ghost predicate FirstEntryFor(t: Table, alias: string, k: int) {
    0 <= k < |t| && t[k].alias == alias && !HasAlias(t[..k], alias)
  }

  /** `$uses[alias]`: the symbol of the first entry for the alias (the only
      one, in a table whose aliases are unique). */
  function Lookup(t: Table, alias: string): (r: Option<string>)
    ensures r.None? <==> !HasAlias(t, alias)
    decreases |t|
  {
    if |t| == 0 then None
    else if t[0].alias == alias then Some(t[0].symbol)
    else Lookup(t[1..], alias)
  }

  /** The symbol found is that of the first entry for the alias. */
  lemma {:induction false} LookupFindsFirst(t: Table, alias: string) returns (k: nat)
    requires HasAlias(t, alias)
    ensures FirstEntryFor(t, alias, k)
    ensures Lookup(t, alias) == Some(t[k].symbol)
    decreases |t|
  {
    if t[0].alias == alias {
      k := 0;
      assert t[..0] == [];
    } else {
      var j := LookupFindsFirst(t[1..], alias);
      k := j + 1;
      assert t[..k][1..] == t[1..][..j];
    }
  }

  /** `$uses[alias] = symbol`: an existing alias is rebound in place, a new
      one is appended. */
  function Put(t: Table, alias: string, symbol: string): (r: Table)
    ensures Lookup(r, alias) == Some(symbol)
    ensures forall b :: b != alias ==> Lookup(r, b) == Lookup(t, b)
    ensures !HasAlias(t, alias) ==> r == t + [Use(alias, symbol)]
    ensures HasAlias(t, alias) ==> |r| == |t|
    ensures forall b :: HasAlias(r, b) <==> HasAlias(t, b) || b == alias
    ensures UniqueAliases(t) ==> UniqueAliases(r)
    decreases |t|
  {
    if |t| == 0 then [Use(alias, symbol)]
    else if t[0].alias == alias then
      var r := [Use(alias, symbol)] + t[1..];
      assert r[1..] == t[1..];
      r
    else
      var rest := Put(t[1..], alias, symbol);
      var r := [t[0]] + rest;
      assert r[1..] == rest;
      assert !HasAlias(t, alias) ==> t + [Use(alias, symbol)] == [t[0]] + (t[1..] + [Use(alias, symbol)]);
      r
  }

  /** Rebinding an alias the table has overwrites its first entry in place:
      every other entry, and the order, stay as they were. */
  lemma {:induction false} PutInPlace(t: Table, alias: string, symbol: string) returns (k: nat)
    requires HasAlias(t, alias)
    ensures FirstEntryFor(t, alias, k)
    ensures Put(t, alias, symbol) == t[k := Use(alias, symbol)]
    decreases |t|
  {
    if t[0].alias == alias {
      k := 0;
      assert t[..0] == [];
    } else {
      var j := PutInPlace(t[1..], alias, symbol);
      k := j + 1;
      assert t[..k][1..] == t[1..][..j];
      assert Put(t, alias, symbol) == [t[0]] + Put(t[1..], alias, symbol);
    }
  }

  /** Binds each entry in turn, so that a later entry for the same alias
      wins. */
  function PutAll(t: Table, entries: seq<Use>): (r: Table)
    ensures UniqueAliases(t) ==> UniqueAliases(r)
    decreases |entries|
  {
    if |entries| == 0 then t else PutAll(Put(t, entries[0].alias, entries[0].symbol), entries[1..])
  }

  /** The symbol of the last entry for `alias`, if any. */
  function LastFor(entries: seq<Use>, alias: string): Option<string>
    decreases |entries|
  {
    if |entries| == 0 then None
    else if entries[|entries| - 1].alias == alias then Some(entries[|entries| - 1].symbol)
    else LastFor(entries[..|entries| - 1], alias)
  }

  // ----- getCurrentUses -----

  /** The captures of `preg_match_all('/use\ ([^;]*);/', head)`: after each
      `use ` that has a `;` somewhere after it, the text up to the first
      `;`; scanning resumes after that `;`. */
  function UseCaptures(s: string): (r: seq<string>)
    ensures forall k :: 0 <= k < |r| ==> ';' !in r[k]
    decreases |s|
  {
    if |s| >= 4 && s[..4] == "use " && ';' in s[4..] then
      var k := IndexOf(s[4..], ';').value;
      [s[4..4 + k]] + UseCaptures(s[4 + k + 1..])
    else if |s| == 0 then []
    else UseCaptures(s[1..])
  }

  /** `c` is the text between a `use ` at `p` and the `;` after it. */
  ghost predicate UseCapturedAt(s: string, p: int, c: string) {
    0 <= p && p + 4 + |c| < |s| && s[p..p + 4] == "use " && s[p + 4..p + 4 + |c|] == c
    && s[p + 4 + |c|] == ';'
  }

  /** `c` is the text of some `use ... ;` statement of `s`. */
  ghost predicate IsUseCapture(s: string, c: string) {
    exists p :: UseCapturedAt(s, p, c)
  }

  lemma UseCapturedShift(s: string, d: nat, p: int, c: string)
    requires d <= |s| && UseCapturedAt(s[d..], p, c)
    ensures UseCapturedAt(s, p + d, c)
  {
    assert s[d..][p..p + 4] == s[p + d..p + d + 4];
    assert s[d..][p + 4..p + 4 + |c|] == s[p + d + 4..p + d + 4 + |c|];
  }

  /** Captures found in a suffix of `s` are captures of `s`. */
  lemma UseCapturesShift(s: string, d: nat, cs: seq<string>)
    requires d <= |s|
    requires forall k :: 0 <= k < |cs| ==> IsUseCapture(s[d..], cs[k])
    ensures forall k :: 0 <= k < |cs| ==> IsUseCapture(s, cs[k])
  {
    forall k | 0 <= k < |cs|
      ensures IsUseCapture(s, cs[k])
    {
      assert IsUseCapture(s[d..], cs[k]);
      var q :| UseCapturedAt(s[d..], q, cs[k]);
      UseCapturedShift(s, d, q, cs[k]);
    }
  }

  /** Every capture is the text of a `use ... ;` statement in the header. */
  lemma {:induction false} UseCapturesDelimited(s: string)
    ensures forall k :: 0 <= k < |UseCaptures(s)| ==> IsUseCapture(s, UseCaptures(s)[k])
    decreases |s|
  {
    var r := UseCaptures(s);
    if |s| >= 4 && s[..4] == "use " && ';' in s[4..] {
      var n := IndexOf(s[4..], ';').value;
      var rest := s[4 + n + 1..];
      assert r == [s[4..4 + n]] + UseCaptures(rest);
      UseCapturesDelimited(rest);
      UseCapturesShift(s, 4 + n + 1, UseCaptures(rest));
      assert s[4..4 + n] == s[4..][..n];
      assert UseCapturedAt(s, 0, r[0]);
      assert IsUseCapture(s, r[0]);
    } else if |s| > 0 {
      assert r == UseCaptures(s[1..]);
      UseCapturesDelimited(s[1..]);
      UseCapturesShift(s, 1, r);
    }
  }

  /** A case-insensitive ` AS ` starts at `k`. */
  predicate AsAt(s: string, k: nat) {
    k + 4 <= |s| && s[k] == ' ' && (s[k + 1] == 'a' || s[k + 1] == 'A')
    && (s[k + 2] == 's' || s[k + 2] == 'S') && s[k + 3] == ' '
  }

  /** The first ` AS ` (any case) at or after `from`. */
  function FindAs(s: string, from: nat): (r: Option<nat>)
    ensures r.Some? ==> from <= r.value && AsAt(s, r.value)
    ensures r.None? ==> forall k :: from <= k < |s| ==> !AsAt(s, k)
    ensures r.Some? ==> forall k :: from <= k < r.value ==> !AsAt(s, k)
    decreases |s| - from
  {
    if from >= |s| then None
    else if AsAt(s, from) then Some(from)
    else FindAs(s, from + 1)
  }

  /** The first two pieces of `preg_split('/\ AS\ /i', m)`: the text before
      the first ` AS `, and the text between it and the next one. */
  function SplitAs(m: string): (string, Option<string>) {
    match FindAs(m, 0)
    case None => (m, None)
    case Some(k) =>
      var rest := m[k + 4..];
      match FindAs(rest, 0)
      case None => (m[..k], Some(rest))
      case Some(k2) => (m[..k], Some(rest[..k2]))
  }

  /** One `use` statement: the alias is the text after ` AS `, or else the
      last segment of the name; both are trimmed. */
  function ParseUse(m: string): Use {
    var (name, alias) := SplitAs(m);
    var a := match alias case Some(x) => x case None => LastSegment(name);
    Use(Trim(a), Trim(name))
  }

  /** One entry per captured statement, in the order of the header. */
  function ParsedUses(captures: seq<string>): (r: seq<Use>)
    ensures |r| == |captures|
  {
    seq(|captures|, k requires 0 <= k < |captures| => ParseUse(captures[k]))
  }

  /** The table read from a header text. */
  function ParseImports(head: string): Table {
    PutAll([], ParsedUses(UseCaptures(head)))
  }

  /** `getCurrentUses`: the header is the file's lines after the first
      (`<?php`) up to the line before the class, joined by newlines; reading
      those lines belongs to reflection and is left to the caller. */
  function GetCurrentUses(headLines: seq<string>): Table {
    ParseImports(Join(headLines, "\n"))
  }

  // ----- getNewUses -----

  /** Characters that end a captured symbol: `\s`, `|`, `^`, `(`, `;`. */
  predicate IsSymbolStop(c: char) {
    IsRegexSpace(c) || c == '|' || c == '^' || c == '(' || c == ';'
  }

  /** Characters the pattern needs after a symbol: `\s`, `|`, `(`, `;`. */
  predicate IsSymbolTerminator(c: char) {
    IsRegexSpace(c) || c == '|' || c == '(' || c == ';'
  }

  /** The length of the longest prefix without a stop character. */
  function SymbolRun(s: string): (n: nat)
    ensures n <= |s|
    ensures forall k :: 0 <= k < n ==> !IsSymbolStop(s[k])
    ensures n < |s| ==> IsSymbolStop(s[n])
    decreases |s|
  {
    if |s| == 0 || IsSymbolStop(s[0]) then 0 else 1 + SymbolRun(s[1..])
  }

  /** The captures of `preg_match_all('/\\\\([^\s|^(|^;]*)[\s|(|;]/', code)`:
      after a backslash, the longest run of characters that are not stops,
      provided a terminator follows it (`^` or the end of the text makes
      that start fail); scanning resumes after the terminator. */
  function SymbolCaptures(s: string): (r: seq<string>)
    ensures forall k :: 0 <= k < |r| ==> forall c :: c in r[k] ==> !IsSymbolStop(c)
    decreases |s|
  {
    if |s| == 0 then []
    else if s[0] == '\\' then
      var n := SymbolRun(s[1..]);
      if 1 + n < |s| && IsSymbolTerminator(s[1 + n]) then
        var rest := SymbolCaptures(s[2 + n..]);
        var r := [s[1..1 + n]] + rest;
        assert forall c :: c in s[1..1 + n] ==> !IsSymbolStop(c) by {
          forall c | c in s[1..1 + n] ensures !IsSymbolStop(c) {
            var k :| 0 <= k < n && s[1..1 + n][k] == c;
            assert s[1..][k] == c;
          }
        }
        r
      else SymbolCaptures(s[1..])
    else SymbolCaptures(s[1..])
  }

  /** `c` follows a backslash at `p` and is followed by a terminator. */
  ghost predicate SymbolCapturedAt(s: string, p: int, c: string) {
    0 <= p && p + 1 + |c| < |s| && s[p] == '\\' && s[p + 1..p + 1 + |c|] == c
    && IsSymbolTerminator(s[p + 1 + |c|])
  }

  /** `c` is captured somewhere in `s`. */
  ghost predicate IsSymbolCapture(s: string, c: string) {
    exists p :: SymbolCapturedAt(s, p, c)
  }

  lemma SymbolCapturedShift(s: string, d: nat, p: int, c: string)
    requires d <= |s| && SymbolCapturedAt(s[d..], p, c)
    ensures SymbolCapturedAt(s, p + d, c)
  {
    assert s[d..][p + 1..p + 1 + |c|] == s[p + d + 1..p + d + 1 + |c|];
  }

  /** Captures found in a suffix of `s` are captures of `s`. */
  lemma SymbolCapturesShift(s: string, d: nat, cs: seq<string>)
    requires d <= |s|
    requires forall k :: 0 <= k < |cs| ==> IsSymbolCapture(s[d..], cs[k])
    ensures forall k :: 0 <= k < |cs| ==> IsSymbolCapture(s, cs[k])
  {
    forall k | 0 <= k < |cs|
      ensures IsSymbolCapture(s, cs[k])
    {
      assert IsSymbolCapture(s[d..], cs[k]);
      var q :| SymbolCapturedAt(s[d..], q, cs[k]);
      SymbolCapturedShift(s, d, q, cs[k]);
    }
  }

  /** Every capture follows a backslash and ends right before a whitespace,
      `|`, `(` or `;`; it holds no stop character, so it is the whole run. */
  lemma {:induction false} SymbolCapturesDelimited(s: string)
    ensures forall k :: 0 <= k < |SymbolCaptures(s)| ==> IsSymbolCapture(s, SymbolCaptures(s)[k])
    decreases |s|
  {
    if |s| > 0 {
      var n := SymbolRun(s[1..]);
      if s[0] == '\\' && 1 + n < |s| && IsSymbolTerminator(s[1 + n]) {
        var rest := s[2 + n..];
        SymbolCapturesDelimited(rest);
        SymbolCapturesShift(s, 2 + n, SymbolCaptures(rest));
        SymbolCaptureFirst(s, n);
        CapturesCons(s, s[1..1 + n], SymbolCaptures(rest));
      } else {
        SymbolCapturesDelimited(s[1..]);
        SymbolCapturesShift(s, 1, SymbolCaptures(s[1..]));
      }
    }
  }

  /** A leading backslash, a run and a terminator: the run is captured first. */
  lemma SymbolCaptureFirst(s: string, n: nat)
    requires |s| > 0 && s[0] == '\\' && n == SymbolRun(s[1..]) && 1 + n < |s| && IsSymbolTerminator(s[1 + n])
    ensures SymbolCaptures(s) == [s[1..1 + n]] + SymbolCaptures(s[2 + n..])
    ensures IsSymbolCapture(s, s[1..1 + n])
  {
    SymbolCapturesUnfold(s, n);
    FirstRunCaptured(s, n);
  }

  lemma SymbolCapturesUnfold(s: string, n: nat)
    requires |s| > 0 && s[0] == '\\' && n == SymbolRun(s[1..]) && 1 + n < |s| && IsSymbolTerminator(s[1 + n])
    ensures SymbolCaptures(s) == [s[1..1 + n]] + SymbolCaptures(s[2 + n..])
  {
  }

  lemma FirstRunCaptured(s: string, n: nat)
    requires |s| > 0 && s[0] == '\\' && 1 + n < |s| && IsSymbolTerminator(s[1 + n])
    ensures IsSymbolCapture(s, s[1..1 + n])
  {
    assert SymbolCapturedAt(s, 0, s[1..1 + n]);
  }

  /** Prepending a capture of `s` to captures of `s`. */
  lemma CapturesCons(s: string, c: string, cs: seq<string>)
    requires IsSymbolCapture(s, c)
    requires forall k :: 0 <= k < |cs| ==> IsSymbolCapture(s, cs[k])
    ensures forall k :: 0 <= k < |[c] + cs| ==> IsSymbolCapture(s, ([c] + cs)[k])
  {
    forall k | 0 <= k < |[c] + cs|
      ensures IsSymbolCapture(s, ([c] + cs)[k])
    {
      if k > 0 {
        assert ([c] + cs)[k] == cs[k - 1];
      }
    }
  }

  /** The alias a new symbol gets: its last segment, followed by `_` and
      `id` when the table already binds that segment. */
  function NewAlias(t: Table, symbol: string, id: string): string {
    var key := LastSegment(symbol);
    if HasAlias(t, key) then key + "_" + id else key
  }

  /** Adds the captures from position `i` on: a symbol already bound is
      skipped, a new one is bound under `NewAlias`. `uniq(i)` stands for the
      value `uniqid()` would return for capture `i`. */
  function AddSymbols(t: Table, captures: seq<string>, i: nat, uniq: nat -> string): Table
    requires i <= |captures|
    decreases |captures| - i
  {
    if i == |captures| then t
    else
      var m := captures[i];
      if HasSymbol(t, m) then AddSymbols(t, captures, i + 1, uniq)
      else AddSymbols(Put(t, NewAlias(t, m, uniq(i)), m), captures, i + 1, uniq)
  }

  /** `getNewUses`. */
  function GetNewUses(t: Table, code: string, uniq: nat -> string): Table {
    AddSymbols(t, SymbolCaptures(code), 0, uniq)
  }

  // ----- generateUsesBlock -----

  /** `use S;` when the alias is S's last segment, else `use S as A;`. */
  function ImportLine(u: Use): (r: string)
    ensures LastSegment(u.symbol) == u.alias ==> r == "use " + u.symbol + ";"
    ensures LastSegment(u.symbol) != u.alias ==> r == "use " + u.symbol + " as " + u.alias + ";"
  {
    "use " + ImportText(u) + ";"
  }

  /** What an import line holds between `use ` and `;`. */
  function ImportText(u: Use): string {
    if LastSegment(u.symbol) == u.alias then u.symbol else u.symbol + " as " + u.alias
  }

  function ImportLines(t: Table): (r: seq<string>)
    ensures |r| == |t|
    decreases |t|
  {
    if |t| == 0 then [] else [ImportLine(t[0])] + ImportLines(t[1..])
  }

  /** The entries that need an import: those outside the current namespace. */
  function ImportedUses(t: Table, currentNamespace: string): (r: Table)
    ensures |r| <= |t|
  {
    if |t| == 0 then []
    else
      var rest := ImportedUses(t[1..], currentNamespace);
      if NamespaceOf(t[0].symbol) != currentNamespace then [t[0]] + rest else rest
  }

  /** An entry is printed exactly when it is in the table and outside the
      current namespace. */
  lemma {:induction false} ImportedUsesMembers(t: Table, currentNamespace: string)
    ensures forall u :: u in ImportedUses(t, currentNamespace) <==> u in t && NamespaceOf(u.symbol) != currentNamespace
    decreases |t|
  {
    if |t| > 0 {
      ImportedUsesMembers(t[1..], currentNamespace);
      assert forall u :: u in t <==> u == t[0] || u in t[1..];
    }
  }

  /** `generateUsesBlock`: one import line per entry outside the current
      namespace, in table order, joined by newlines. */
  function GenerateUsesBlock(t: Table, currentNamespace: string): string {
    Join(ImportLines(ImportedUses(t, currentNamespace)), "\n")
  }

  // ----- rewriteHead -----

  predicate IsUseLine(line: string) {
    Contains(line, "use ")
  }

  /** The header loop: the first line containing `use ` becomes the block,
      later ones are dropped, the rest are kept. `pending` says the block has
      not been placed yet. */
  function RewriteLines(head: seq<string>, block: string, pending: bool): seq<string>
    decreases |head|
  {
    if |head| == 0 then []
    else if IsUseLine(head[0]) then
      (if pending then [block] else []) + RewriteLines(head[1..], block, false)
    else [head[0]] + RewriteLines(head[1..], block, pending)
  }

  /** `rewriteHead`: the rewritten header followed by the rest of the file,
      joined by newlines. Both line lists come from reflection and the file,
      and are inputs here. */
  function RewriteHead(head: seq<string>, rest: seq<string>, block: string): string {
    Join(RewriteLines(head, block, true) + rest, "\n")
  }

  // ----- aliasingUse -----

  /** `aliasingUse`: for each entry in order, `\S` and then `S` are replaced
      by the alias throughout the body. */
  function AliasingUse(t: Table, body: string): string
    decreases |t|
  {
    if |t| == 0 then body
    else
      var once := ReplaceAll(ReplaceAll(body, "\\" + t[0].symbol, t[0].alias), t[0].symbol, t[0].alias);
      AliasingUse(t[1..], once)
  }

  // ----- facts about the table -----

  lemma {:induction false} HasAliasAppend(a: Table, b: Table, x: string)
    ensures HasAlias(a + b, x) <==> HasAlias(a, x) || HasAlias(b, x)
    decreases |a|
  {
    if |a| > 0 {
      assert (a + b)[1..] == a[1..] + b;
      HasAliasAppend(a[1..], b, x);
    } else {
      assert a + b == b;
    }
  }

  lemma {:induction false} HasSymbolAppend(a: Table, b: Table, x: string)
    ensures HasSymbol(a + b, x) <==> HasSymbol(a, x) || HasSymbol(b, x)
    decreases |a|
  {
    if |a| > 0 {
      assert (a + b)[1..] == a[1..] + b;
      HasSymbolAppend(a[1..], b, x);
    } else {
      assert a + b == b;
    }
  }

  /** A table whose aliases are unique appended to another stays so exactly
      when no alias of the appended part is already bound. */
  lemma {:induction false} UniqueAppendHead(t: Table, entries: seq<Use>)
    requires |entries| > 0
    requires UniqueAliases(t + entries)
    ensures !HasAlias(t, entries[0].alias)
    decreases |t|
  {
    if |t| > 0 {
      assert (t + entries)[1..] == t[1..] + entries;
      HasAliasAppend(t[1..], entries, entries[0].alias);
      UniqueAppendHead(t[1..], entries);
    }
  }

  /** Binding entries whose aliases are all new appends them in order. */
  lemma {:induction false} PutAllAppends(t: Table, entries: seq<Use>)
    requires UniqueAliases(t + entries)
    ensures PutAll(t, entries) == t + entries
    decreases |entries|
  {
    if |entries| == 0 {
      assert t + entries == t;
    } else {
      UniqueAppendHead(t, entries);
      assert t + entries == (t + [entries[0]]) + entries[1..];
      PutAllAppends(t + [entries[0]], entries[1..]);
    }
  }

  lemma {:induction false} PutAllSnoc(t: Table, entries: seq<Use>, e: Use)
    ensures PutAll(t, entries + [e]) == Put(PutAll(t, entries), e.alias, e.symbol)
    decreases |entries|
  {
    if |entries| == 0 {
      assert [e][1..] == [];
    } else {
      assert (entries + [e])[1..] == entries[1..] + [e];
      PutAllSnoc(Put(t, entries[0].alias, entries[0].symbol), entries[1..], e);
    }
  }

  /** Of several entries for one alias, the last one decides what the alias
      names; an alias no entry mentions keeps its old binding. */
  lemma {:induction false} LaterEntryWins(t: Table, entries: seq<Use>, alias: string)
    ensures Lookup(PutAll(t, entries), alias)
            == (match LastFor(entries, alias) case Some(s) => Some(s) case None => Lookup(t, alias))
    decreases |entries|
  {
    if |entries| > 0 {
      var init, e := entries[..|entries| - 1], entries[|entries| - 1];
      assert entries == init + [e];
      PutAllSnoc(t, init, e);
      LaterEntryWins(t, init, alias);
    }
  }

  /** `getCurrentUses`: the table has unique aliases, and each alias names
      the symbol of its last `use` statement in the header. */
  lemma CurrentUsesLastWins(headLines: seq<string>, alias: string)
    ensures UniqueAliases(GetCurrentUses(headLines))
    ensures Lookup(GetCurrentUses(headLines), alias)
            == LastFor(ParsedUses(UseCaptures(Join(headLines, "\n"))), alias)
  {
    var entries := ParsedUses(UseCaptures(Join(headLines, "\n")));
    LaterEntryWins([], entries, alias);
    match LastFor(entries, alias)
    case Some(_) =>
    case None =>
  }

  // ----- the import block reads back as the table it was printed from -----

  /** A name that `trim` leaves alone and that holds no `;`. */
  predicate IsCleanName(s: string) {
    forall c :: c in s ==> !IsTrimmed(c) && c != ';'
  }

  lemma CleanNameTrimmed(s: string)
    requires IsCleanName(s)
    ensures Trim(s) == s
  {
    if |s| > 0 {
      assert s[0] in s && s[|s| - 1] in s;
    }
    TrimFixesClean(s);
  }

  lemma NoAsWithoutSpace(s: string)
    requires ' ' !in s
    ensures FindAs(s, 0).None?
  {
  }

  lemma UseCapturesNewline(rest: string)
    ensures UseCaptures("\n" + rest) == UseCaptures(rest)
  {
    var s := "\n" + rest;
    if |s| >= 4 {
      assert s[..4][0] == '\n';
    }
    assert s[1..] == rest;
  }

  /** `preg_split` on ` as ` takes a clean name and alias apart again. */
  lemma SplitAsAliased(symbol: string, alias: string)
    requires IsCleanName(symbol) && IsCleanName(alias)
    ensures SplitAs(symbol + " as " + alias) == (symbol, Some(alias))
  {
    var x := symbol + " as " + alias;
    var n := |symbol|;
    assert AsAt(x, n);
    NoAsWithoutSpace(symbol);
    assert forall k :: 0 <= k < n ==> !AsAt(x, k) by {
      forall k | 0 <= k < n
        ensures !AsAt(x, k)
      {
        assert x[k] == symbol[k] && symbol[k] in symbol;
      }
    }
    assert FindAs(x, 0) == Some(n);
    assert x[..n] == symbol;
    assert x[n + 4..] == alias;
    NoAsWithoutSpace(alias);
  }

  /** One import line's text parses back to its entry. */
  lemma ParseImportText(u: Use)
    requires IsCleanName(u.symbol) && IsCleanName(u.alias)
    ensures ParseUse(ImportText(u)) == u
  {
    CleanNameTrimmed(u.symbol);
    CleanNameTrimmed(u.alias);
    if LastSegment(u.symbol) == u.alias {
      NoAsWithoutSpace(u.symbol);
      assert SplitAs(u.symbol) == (u.symbol, None);
    } else {
      SplitAsAliased(u.symbol, u.alias);
    }
  }

  lemma UseCapturesCons(x: string, tail: string)
    requires ';' !in x
    ensures UseCaptures("use " + x + ";" + tail) == [x] + UseCaptures(tail)
  {
    var s := "use " + x + ";" + tail;
    assert s[..4] == "use ";
    assert s[4..] == x + ";" + tail;
    assert s[4 + |x|] == ';';
    var k := IndexOf(s[4..], ';').value;
    assert k == |x|;
    assert s[4..4 + k] == x;
    assert s[4 + k + 1..] == tail;
  }

  lemma ImportTextClean(u: Use)
    requires IsCleanName(u.symbol) && IsCleanName(u.alias)
    ensures ';' !in ImportText(u)
  {
    if LastSegment(u.symbol) != u.alias {
      assert ImportText(u) == u.symbol + " as " + u.alias;
      assert ';' !in " as ";
    }
  }

  lemma ImportBlockCons(t: Table)
    requires |t| > 1
    ensures Join(ImportLines(t), "\n")
            == "use " + ImportText(t[0]) + ";" + ("\n" + Join(ImportLines(t[1..]), "\n"))
  {
    assert ImportLines(t) == [ImportLine(t[0])] + ImportLines(t[1..]);
    JoinCons(ImportLine(t[0]), ImportLines(t[1..]), "\n");
  }

  lemma {:induction false} UseCapturesOfBlock(t: Table)
    requires forall k :: 0 <= k < |t| ==> IsCleanName(t[k].symbol) && IsCleanName(t[k].alias)
    ensures UseCaptures(Join(ImportLines(t), "\n")) == ImportTexts(t)
    decreases |t|
  {
    if |t| == 1 {
      ImportTextClean(t[0]);
      UseCapturesCons(ImportText(t[0]), "");
      assert "use " + ImportText(t[0]) + ";" + "" == ImportLine(t[0]);
    } else if |t| > 1 {
      ImportTextClean(t[0]);
      UseCapturesOfBlock(t[1..]);
      ImportBlockCons(t);
      var rest := Join(ImportLines(t[1..]), "\n");
      UseCapturesCons(ImportText(t[0]), "\n" + rest);
      UseCapturesNewline(rest);
    }
  }

  function ImportTexts(t: Table): (r: seq<string>)
    ensures |r| == |t|
    decreases |t|
  {
    if |t| == 0 then [] else [ImportText(t[0])] + ImportTexts(t[1..])
  }

  lemma {:induction false} ImportTextsAt(t: Table, k: nat)
    requires k < |t|
    ensures ImportTexts(t)[k] == ImportText(t[k])
    decreases |t|
  {
    if k > 0 {
      ImportTextsAt(t[1..], k - 1);
    }
  }

  lemma ParseImportTexts(t: Table)
    requires forall k :: 0 <= k < |t| ==> IsCleanName(t[k].symbol) && IsCleanName(t[k].alias)
    ensures ParsedUses(ImportTexts(t)) == t
  {
    var texts := ImportTexts(t);
    forall k | 0 <= k < |t|
      ensures ParsedUses(texts)[k] == t[k]
    {
      ImportTextsAt(t, k);
      ParseImportText(t[k]);
    }
  }

  /** One import line, read back by `getCurrentUses`, is the entry it was
      printed from. */
  lemma ImportLineReadsBack(u: Use)
    requires IsCleanName(u.symbol) && IsCleanName(u.alias)
    ensures GetCurrentUses([ImportLine(u)]) == [u]
  {
    assert ImportLines([u]) == [ImportLine(u)];
    UseCapturesOfBlock([u]);
    ParseImportTexts([u]);
    assert [] + [u] == [u];
    PutAllAppends([], [u]);
  }

  /** The entries outside the namespace keep their order and multiplicity:
      the selection distributes over concatenation. */
  lemma {:induction false} ImportedUsesInOrder(a: Table, b: Table, currentNamespace: string)
    ensures ImportedUses(a + b, currentNamespace) == ImportedUses(a, currentNamespace) + ImportedUses(b, currentNamespace)
    decreases |a|
  {
    if |a| == 0 {
      assert a + b == b;
    } else {
      assert (a + b)[1..] == a[1..] + b;
      ImportedUsesInOrder(a[1..], b, currentNamespace);
    }
  }

  /** One step of the selection: the first entry is kept exactly when it
      lies outside the namespace. */
  lemma ImportedUsesStep(t: Table, currentNamespace: string)
    requires |t| > 0
    ensures ImportedUses(t, currentNamespace)
            == (if NamespaceOf(t[0].symbol) != currentNamespace then [t[0]] else []) + ImportedUses(t[1..], currentNamespace)
  {
  }

  /** A single entry is kept exactly when it lies outside the namespace. */
  lemma ImportedUsesSingle(u: Use, currentNamespace: string)
    ensures ImportedUses([u], currentNamespace) == if NamespaceOf(u.symbol) != currentNamespace then [u] else []
  {
    ImportedUsesStep([u], currentNamespace);
    assert [u][1..] == [];
  }

  /** A table with every entry outside the namespace is printed whole. */
  lemma {:induction false} ImportedUsesAll(t: Table, currentNamespace: string)
    requires forall k :: 0 <= k < |t| ==> NamespaceOf(t[k].symbol) != currentNamespace
    ensures ImportedUses(t, currentNamespace) == t
    decreases |t|
  {
    if |t| > 0 {
      ImportedUsesAll(t[1..], currentNamespace);
      assert [t[0]] + t[1..] == t;
    }
  }

  lemma {:induction false} ImportedUsesUnique(t: Table, currentNamespace: string)
    requires UniqueAliases(t)
    ensures UniqueAliases(ImportedUses(t, currentNamespace))
    ensures forall a :: HasAlias(ImportedUses(t, currentNamespace), a) ==> HasAlias(t, a)
    decreases |t|
  {
    if |t| > 0 {
      ImportedUsesUnique(t[1..], currentNamespace);
      var rest := ImportedUses(t[1..], currentNamespace);
      if NamespaceOf(t[0].symbol) != currentNamespace {
        assert ([t[0]] + rest)[1..] == rest;
      }
    }
  }

  /** Printing a table as a `use` block and reading the block back gives
      the entries outside the current namespace, in order, provided names
      and aliases hold no whitespace and no `;`. */
  lemma UsesBlockRoundTrip(t: Table, currentNamespace: string)
    requires UniqueAliases(t)
    requires forall k :: 0 <= k < |t| ==> IsCleanName(t[k].symbol) && IsCleanName(t[k].alias)
    ensures GetCurrentUses([GenerateUsesBlock(t, currentNamespace)]) == ImportedUses(t, currentNamespace)
  {
    var imported := ImportedUses(t, currentNamespace);
    ImportedUsesMembers(t, currentNamespace);
    assert forall k :: 0 <= k < |imported| ==> imported[k] in t;
    UseCapturesOfBlock(imported);
    ParseImportTexts(imported);
    ImportedUsesUnique(t, currentNamespace);
    assert [] + imported == imported;
    PutAllAppends([], imported);
  }

  // ----- a header whose only `use` lines are a generated block -----

  /** A text without `use ` holds no import statement. */
  lemma {:induction false} NoUseNoCaptures(x: string)
    requires !Contains(x, "use ")
    ensures UseCaptures(x) == []
    decreases |x|
  {
    if |x| > 0 {
      assert !StartsWith(x, "use ");
      NoUseNoCaptures(x[1..]);
    }
  }

  /** The scan passes over a line without `use ` and the newline after it. */
  lemma {:induction false} UseCapturesSkipLine(x: string, y: string)
    requires !Contains(x, "use ")
    ensures UseCaptures(x + "\n" + y) == UseCaptures(y)
    decreases |x|
  {
    var s := x + "\n" + y;
    if |x| == 0 {
      assert s == "\n" + y;
      UseCapturesNewline(y);
    } else {
      assert !StartsWith(x, "use ");
      if |s| >= 4 {
        if |x| >= 4 {
          assert s[..4] == x[..4];
        } else {
          assert s[..4][|x|] == '\n';
        }
      }
      assert s[1..] == x[1..] + "\n" + y;
      UseCapturesSkipLine(x[1..], y);
    }
  }

  /** Lines without `use ` in front of others contribute no import. */
  lemma {:induction false} UseCapturesSkipLines(a: seq<string>, b: seq<string>)
    requires forall k :: 0 <= k < |a| ==> !IsUseLine(a[k])
    ensures UseCaptures(Join(a + b, "\n")) == UseCaptures(Join(b, "\n"))
    decreases |a|
  {
    if |a| == 0 {
      assert a + b == b;
    } else if |a| == 1 && |b| == 0 {
      assert a + b == [a[0]];
      NoUseNoCaptures(a[0]);
    } else {
      assert a + b == [a[0]] + (a[1..] + b);
      JoinCons(a[0], a[1..] + b, "\n");
      UseCapturesSkipLine(a[0], Join(a[1..] + b, "\n"));
      UseCapturesSkipLines(a[1..], b);
    }
  }

  /** A generated block followed by further lines: the block's statements
      come first, then whatever the further lines hold. */
  lemma {:induction false} UseCapturesBlockThen(t: Table, b: seq<string>)
    requires |t| >= 1
    requires forall k :: 0 <= k < |t| ==> IsCleanName(t[k].symbol) && IsCleanName(t[k].alias)
    ensures UseCaptures(Join(ImportLines(t) + b, "\n")) == ImportTexts(t) + UseCaptures(Join(b, "\n"))
    decreases |t|
  {
    ImportTextClean(t[0]);
    var x := ImportText(t[0]);
    var more := ImportLines(t[1..]) + b;
    assert ImportLines(t) + b == [ImportLine(t[0])] + more;
    if |more| == 0 {
      assert |t| == 1 && |b| == 0;
      UseCapturesCons(x, "");
      assert ImportLine(t[0]) == "use " + x + ";" + "";
    } else {
      JoinCons(ImportLine(t[0]), more, "\n");
      assert ImportLine(t[0]) + "\n" + Join(more, "\n") == "use " + x + ";" + ("\n" + Join(more, "\n"));
      UseCapturesCons(x, "\n" + Join(more, "\n"));
      UseCapturesNewline(Join(more, "\n"));
      if |t| > 1 {
        UseCapturesBlockThen(t[1..], b);
      } else {
        assert more == b;
      }
    }
  }

  /** An import line is a `use` line. */
  lemma ImportLineIsUseLine(u: Use)
    ensures IsUseLine(ImportLine(u))
  {
    assert StartsWith(ImportLine(u), "use ");
  }

  /** Lines without `use ` around a middle part leave only its statements
      and those of the lines after it. */
  lemma UseCapturesAround(pre: seq<string>, mid: seq<string>, post: seq<string>)
    requires forall k :: 0 <= k < |pre| ==> !IsUseLine(pre[k])
    requires forall k :: 0 <= k < |post| ==> !IsUseLine(post[k])
    ensures UseCaptures(Join(pre + mid + post, "\n")) == UseCaptures(Join(mid + post, "\n"))
    ensures UseCaptures(Join(post, "\n")) == []
  {
    assert pre + mid + post == pre + (mid + post);
    UseCapturesSkipLines(pre, mid + post);
    UseCapturesSkipLines(post, []);
    assert post + [] == post;
    assert UseCaptures(Join([], "\n")) == [];
  }

  /** The statements of such a header are exactly the block's. */
  lemma HeaderCaptures(pre: seq<string>, t: Table, post: seq<string>)
    requires forall k :: 0 <= k < |pre| ==> !IsUseLine(pre[k])
    requires forall k :: 0 <= k < |post| ==> !IsUseLine(post[k])
    requires forall k :: 0 <= k < |t| ==> IsCleanName(t[k].symbol) && IsCleanName(t[k].alias)
    ensures UseCaptures(Join(pre + ImportLines(t) + post, "\n")) == ImportTexts(t)
  {
    var lines := ImportLines(t);
    UseCapturesAround(pre, lines, post);
    if |t| >= 1 {
      UseCapturesBlockThen(t, post);
      assert ImportTexts(t) + [] == ImportTexts(t);
    } else {
      assert lines + post == post;
    }
  }

  /** Statements that parse to a table with unique aliases bind exactly
      that table. */
  lemma BindParsed(captures: seq<string>, t: Table)
    requires UniqueAliases(t)
    requires ParsedUses(captures) == t
    ensures PutAll([], ParsedUses(captures)) == t
  {
    assert [] + t == t;
    PutAllAppends([], t);
  }

  /** `getCurrentUses` reads back the table of a header made of lines
      without `use `, a block of import lines, and more lines without
      `use `: the table the block was printed from. */
  lemma HeaderReadsBack(pre: seq<string>, t: Table, post: seq<string>)
    requires forall k :: 0 <= k < |pre| ==> !IsUseLine(pre[k])
    requires forall k :: 0 <= k < |post| ==> !IsUseLine(post[k])
    requires UniqueAliases(t)
    requires forall k :: 0 <= k < |t| ==> IsCleanName(t[k].symbol) && IsCleanName(t[k].alias)
    ensures GetCurrentUses(pre + ImportLines(t) + post) == t
  {
    var text := Join(pre + ImportLines(t) + post, "\n");
    HeaderCaptures(pre, t, post);
    ParseImportTexts(t);
    BindParsed(UseCaptures(text), t);
    assert GetCurrentUses(pre + ImportLines(t) + post) == ParseImports(text);
  }

  /** Every import line is dropped by the `use` line filter. */
  lemma {:induction false} ImportLinesAreUseLines(t: Table)
    ensures NonUseLines(ImportLines(t)) == []
    decreases |t|
  {
    if |t| > 0 {
      ImportLineIsUseLine(t[0]);
      ImportLinesAreUseLines(t[1..]);
    }
  }

  /** After the first line of a block, only the lines without `use ` stay. */
  lemma NonUseLinesAfterBlock(t: Table, post: seq<string>)
    requires |t| >= 1
    requires forall k :: 0 <= k < |post| ==> !IsUseLine(post[k])
    ensures NonUseLines(ImportLines(t)[1..] + post) == post
  {
    assert ImportLines(t)[1..] == ImportLines(t[1..]);
    NonUseLinesInOrder(ImportLines(t[1..]), post);
    ImportLinesAreUseLines(t[1..]);
    NonUseLinesKeepsClean(post);
    assert [] + post == post;
  }

  /** A first `use` line after lines without one is replaced by the block,
      and the later lines keep what the filter keeps. */
  lemma {:induction false} RewriteFirstUseLine(pre: seq<string>, lines: seq<string>, post: seq<string>, block: string)
    requires |lines| >= 1 && IsUseLine(lines[0])
    requires forall k :: 0 <= k < |pre| ==> !IsUseLine(pre[k])
    requires NonUseLines(lines[1..] + post) == post
    ensures RewriteLines(pre + lines + post, block, true) == pre + [block] + post
    decreases |pre|
  {
    var head := pre + lines + post;
    if |pre| == 0 {
      assert head == lines + post;
      assert head[1..] == lines[1..] + post;
      RewriteAfterBlock(lines[1..] + post, block);
    } else {
      assert head[0] == pre[0];
      assert head[1..] == pre[1..] + lines + post;
      RewriteFirstUseLine(pre[1..], lines, post, block);
      assert [pre[0]] + (pre[1..] + [block] + post) == pre + [block] + post;
    }
  }

  /** Rewriting a header whose only `use` lines are a block of import lines
      with that block's own text puts the same lines back. */
  lemma RewriteBlockInPlace(pre: seq<string>, t: Table, post: seq<string>)
    requires |t| >= 1
    requires forall k :: 0 <= k < |pre| ==> !IsUseLine(pre[k])
    requires forall k :: 0 <= k < |post| ==> !IsUseLine(post[k])
    ensures RewriteLines(pre + ImportLines(t) + post, Join(ImportLines(t), "\n"), true)
            == pre + [Join(ImportLines(t), "\n")] + post
  {
    ImportLineIsUseLine(t[0]);
    NonUseLinesAfterBlock(t, post);
    RewriteFirstUseLine(pre, ImportLines(t), post, Join(ImportLines(t), "\n"));
  }

  /** The text of a rewritten header with the block in one line is the
      text with the block's lines. */
  lemma FlattenBlock(pre: seq<string>, lines: seq<string>, post: seq<string>, rest: seq<string>)
    requires |lines| >= 1
    ensures Join(pre + [Join(lines, "\n")] + post + rest, "\n") == Join(pre + lines + post + rest, "\n")
  {
    assert pre + [Join(lines, "\n")] + post + rest == pre + [Join(lines, "\n")] + (post + rest);
    JoinFlatten(pre, lines, post + rest, "\n");
    assert pre + lines + (post + rest) == pre + lines + post + rest;
  }

  /** A header without `use` lines, whatever the block. */
  lemma RewriteHeadWithoutUseLines(head: seq<string>, rest: seq<string>, block: string)
    requires forall k :: 0 <= k < |head| ==> !IsUseLine(head[k])
    ensures RewriteHead(head, rest, block) == Join(head + rest, "\n")
  {
    RewriteWithoutUseLines(head, block, true);
  }

  /** `rewriteHead` with the block a header already holds gives back the
      file's text unchanged. */
  lemma RewriteHeadKeepsBlock(pre: seq<string>, t: Table, post: seq<string>, rest: seq<string>)
    requires forall k :: 0 <= k < |pre| ==> !IsUseLine(pre[k])
    requires forall k :: 0 <= k < |post| ==> !IsUseLine(post[k])
    ensures RewriteHead(pre + ImportLines(t) + post, rest, Join(ImportLines(t), "\n"))
            == Join(pre + ImportLines(t) + post + rest, "\n")
  {
    var lines := ImportLines(t);
    if |t| >= 1 {
      RewriteBlockInPlace(pre, t, post);
      FlattenBlock(pre, lines, post, rest);
    } else {
      assert pre + lines + post == pre + post;
      NoUseLinesJoined(pre, post);
      RewriteHeadWithoutUseLines(pre + post, rest, Join(lines, "\n"));
    }
  }

  lemma NoUseLinesJoined(a: seq<string>, b: seq<string>)
    requires forall k :: 0 <= k < |a| ==> !IsUseLine(a[k])
    requires forall k :: 0 <= k < |b| ==> !IsUseLine(b[k])
    ensures forall k :: 0 <= k < |a + b| ==> !IsUseLine((a + b)[k])
  {
    forall k | 0 <= k < |a + b|
      ensures !IsUseLine((a + b)[k])
    {
      if k >= |a| {
        assert (a + b)[k] == b[k - |a|];
      } else {
        assert (a + b)[k] == a[k];
      }
    }
  }

  // ----- new imports never disturb existing ones -----

  lemma {:induction false} HasAliasAt(t: Table, alias: string) returns (k: nat)
    requires HasAlias(t, alias)
    ensures k < |t| && t[k].alias == alias
    decreases |t|
  {
    if t[0].alias == alias {
      k := 0;
    } else {
      var j := HasAliasAt(t[1..], alias);
      k := j + 1;
    }
  }

  lemma {:induction false} SymbolCapturesOccur(s: string)
    ensures forall k :: 0 <= k < |SymbolCaptures(s)| ==> Contains(s, SymbolCaptures(s)[k])
    decreases |s|
  {
    if |s| > 0 {
      var n := SymbolRun(s[1..]);
      if s[0] == '\\' && 1 + n < |s| && IsSymbolTerminator(s[1 + n]) {
        SymbolCapturesOccur(s[2 + n..]);
        ContainsSlice(s, 1, 1 + n);
        assert s[1..][..n] == s[1..1 + n];
        forall k | 1 <= k < |SymbolCaptures(s)|
          ensures Contains(s, SymbolCaptures(s)[k])
        {
          assert SymbolCaptures(s)[k] == SymbolCaptures(s[2 + n..])[k - 1];
          ContainsInSuffix(s, 2 + n, SymbolCaptures(s)[k]);
        }
      } else {
        SymbolCapturesOccur(s[1..]);
        forall k | 0 <= k < |SymbolCaptures(s)|
          ensures Contains(s, SymbolCaptures(s)[k])
        {
          ContainsInSuffix(s, 1, SymbolCaptures(s)[k]);
        }
      }
    }
  }

  /** Of two `_id` endings of one string, the longer id contains the other
      ending's `_`. */
  lemma LongerIdHasUnderscore(w: string, u: string, v: string)
    requires EndsWith(w, "_" + u) && EndsWith(w, "_" + v) && |v| < |u|
    ensures '_' in u
  {
    var n := |w|;
    assert w[n - |v| - 1..][0] == '_';
    assert w[n - |u| - 1..][|u| - |v|] == u[|u| - |v| - 1];
  }

  /** Two ids without `_` give the same `_id` ending only if they are equal. */
  lemma IdSuffixDetermined(a: string, u: string, v: string)
    requires '_' !in u && '_' !in v
    ensures EndsWith(a + "_" + u, "_" + v) ==> u == v
  {
    var w := a + "_" + u;
    if EndsWith(w, "_" + v) {
      assert w[|w| - |u| - 1..] == "_" + u;
      if |v| < |u| {
        LongerIdHasUnderscore(w, u, v);
      } else if |u| < |v| {
        LongerIdHasUnderscore(w, v, u);
      } else {
        assert w[|w| - |u| - 1..][1..] == u;
        assert w[|w| - |v| - 1..][1..] == v;
      }
    }
  }

  /** What the generated aliases rely on `uniqid()` for: ids hold no `_`,
      differ from one another, and `_id` occurs neither in the code nor at
      the end of an alias already in the table. */
  ghost predicate FreshIds(t: Table, code: string, uniq: nat -> string) {
    IdsFreshIn(code, uniq) && SettledFrom(t, 0, uniq)
  }

  ghost predicate IdsFreshIn(code: string, uniq: nat -> string) {
    && (forall i: nat :: '_' !in uniq(i))
    && (forall i: nat, j: nat :: i != j ==> uniq(i) != uniq(j))
    && (forall i: nat :: !Contains(code, "_" + uniq(i)))
  }

  /** No alias in `cur` ends with an id not used yet. */
  ghost predicate SettledFrom(cur: Table, i: nat, uniq: nat -> string) {
    forall k, j: nat :: 0 <= k < |cur| && i <= j ==> !EndsWith(cur[k].alias, "_" + uniq(j))
  }

  /** The alias chosen for capture `i` is unbound, and stays clear of the
      ids still to come. */
  lemma ChosenAliasFresh(cur: Table, code: string, m: string, i: nat, uniq: nat -> string)
    requires Contains(code, m)
    requires IdsFreshIn(code, uniq)
    requires SettledFrom(cur, i, uniq)
    ensures var alias := NewAlias(cur, m, uniq(i));
            !HasAlias(cur, alias) && SettledFrom(cur + [Use(alias, m)], i + 1, uniq)
  {
    var key := LastSegment(m);
    var next;
    if HasAlias(cur, key) {
      var alias := key + "_" + uniq(i);
      assert alias[|alias| - |uniq(i)| - 1..] == "_" + uniq(i);
      if HasAlias(cur, alias) {
        var k := HasAliasAt(cur, alias);
      }
      next := cur + [Use(alias, m)];
      forall k, j: nat | 0 <= k < |next| && i + 1 <= j
        ensures !EndsWith(next[k].alias, "_" + uniq(j))
      {
        if k == |cur| {
          IdSuffixDetermined(key, uniq(i), uniq(j));
        } else {
          assert next[k] == cur[k];
        }
      }
    } else {
      next := cur + [Use(key, m)];
      forall k, j: nat | 0 <= k < |next| && i + 1 <= j
        ensures !EndsWith(next[k].alias, "_" + uniq(j))
      {
        if k == |cur| {
          if EndsWith(key, "_" + uniq(j)) {
            LastSegmentIsSuffix(m);
            EndsWithTrans(m, key, "_" + uniq(j));
            ContainsEndOf(code, m, "_" + uniq(j));
          }
        } else {
          assert next[k] == cur[k];
        }
      }
    }
  }

  lemma HasSymbolInPrefix(r: Table, n: nat, s: string)
    requires n <= |r| && HasSymbol(r[..n], s)
    ensures HasSymbol(r, s)
  {
    HasSymbolAppend(r[..n], r[n..], s);
    assert r[..n] + r[n..] == r;
  }

  /** Under fresh ids each step appends, so what came before stays a
      prefix; every capture from `i` on ends up imported. */
  lemma {:induction false} AddSymbolsPrefix(cur: Table, captures: seq<string>, i: nat, uniq: nat -> string, code: string)
    requires i <= |captures|
    requires UniqueAliases(cur)
    requires forall k :: 0 <= k < |captures| ==> Contains(code, captures[k])
    requires IdsFreshIn(code, uniq)
    requires SettledFrom(cur, i, uniq)
    ensures var r := AddSymbols(cur, captures, i, uniq);
            && |cur| <= |r| && r[..|cur|] == cur
            && (forall k :: i <= k < |captures| ==> HasSymbol(r, captures[k]))
    decreases |captures| - i
  {
    var r := AddSymbols(cur, captures, i, uniq);
    if i < |captures| {
      var m := captures[i];
      if HasSymbol(cur, m) {
        AddSymbolsPrefix(cur, captures, i + 1, uniq, code);
        HasSymbolInPrefix(r, |cur|, m);
      } else {
        var alias := NewAlias(cur, m, uniq(i));
        ChosenAliasFresh(cur, code, m, i, uniq);
        var next := cur + [Use(alias, m)];
        AddSymbolsPrefix(next, captures, i + 1, uniq, code);
        assert r[..|cur|] == next[..|cur|];
        HasSymbolAppend(cur, [Use(alias, m)], m);
        HasSymbolInPrefix(r, |next|, m);
      }
    }
  }

  /** Each entry of `r` from `n` on imports a captured symbol that no entry
      before it imports, under the alias `NewAlias` picks against the
      entries before it with that capture's id. */
  ghost predicate AddedFrom(r: Table, n: nat, captures: seq<string>, uniq: nat -> string) {
    n <= |r|
    && forall k :: n <= k < |r| ==>
         !HasSymbol(r[..k], r[k].symbol)
         && exists i :: 0 <= i < |captures| && captures[i] == r[k].symbol
                        && r[k].alias == NewAlias(r[..k], r[k].symbol, uniq(i))
  }

  /** One more entry in front of entries that satisfy `AddedFrom`. */
  lemma AddedFromStep(cur: Table, r: Table, captures: seq<string>, i: nat, uniq: nat -> string)
    requires i < |captures|
    requires var u := Use(NewAlias(cur, captures[i], uniq(i)), captures[i]);
             |cur| + 1 <= |r| && r[..|cur| + 1] == cur + [u]
    requires AddedFrom(r, |cur| + 1, captures, uniq)
    requires !HasSymbol(cur, captures[i])
    ensures AddedFrom(r, |cur|, captures, uniq)
  {
    var u := Use(NewAlias(cur, captures[i], uniq(i)), captures[i]);
    assert r[|cur|] == (cur + [u])[|cur|];
    assert r[..|cur|] == (cur + [u])[..|cur|];
  }

  /** Under fresh ids each entry added imports a captured class that was
      not imported before it, under the alias `NewAlias` picks. */
  lemma {:induction false} AddSymbolsAdditions(cur: Table, captures: seq<string>, i: nat, uniq: nat -> string, code: string)
    requires i <= |captures|
    requires UniqueAliases(cur)
    requires forall k :: 0 <= k < |captures| ==> Contains(code, captures[k])
    requires IdsFreshIn(code, uniq)
    requires SettledFrom(cur, i, uniq)
    ensures AddedFrom(AddSymbols(cur, captures, i, uniq), |cur|, captures, uniq)
    decreases |captures| - i
  {
    var r := AddSymbols(cur, captures, i, uniq);
    if i < |captures| {
      var m := captures[i];
      if HasSymbol(cur, m) {
        AddSymbolsAdditions(cur, captures, i + 1, uniq, code);
      } else {
        var alias := NewAlias(cur, m, uniq(i));
        ChosenAliasFresh(cur, code, m, i, uniq);
        var next := cur + [Use(alias, m)];
        assert r == AddSymbols(next, captures, i + 1, uniq);
        AddSymbolsAdditions(next, captures, i + 1, uniq, code);
        AddSymbolsPrefix(next, captures, i + 1, uniq, code);
        AddedFromStep(cur, r, captures, i, uniq);
      }
    }
  }

  /** `getNewUses` under fresh ids: the old table is kept as it was, every
      class the code names is imported, and each new entry imports a
      captured class not imported before, under its last segment, or under
      its last segment, `_` and that capture's id when the segment is
      already an alias. */
  lemma NewUsesExtendTable(t: Table, code: string, uniq: nat -> string)
    requires UniqueAliases(t)
    requires FreshIds(t, code, uniq)
    ensures var r := GetNewUses(t, code, uniq);
            && |t| <= |r| && r[..|t|] == t
            && (forall m :: m in SymbolCaptures(code) ==> HasSymbol(r, m))
            && AddedFrom(r, |t|, SymbolCaptures(code), uniq)
  {
    SymbolCapturesOccur(code);
    AddSymbolsPrefix(t, SymbolCaptures(code), 0, uniq, code);
    AddSymbolsAdditions(t, SymbolCaptures(code), 0, uniq, code);
    var r := GetNewUses(t, code, uniq);
    assert AddedFrom(r, |t|, SymbolCaptures(code), uniq);
  }

  lemma {:induction false} AddSymbolsUnique(t: Table, captures: seq<string>, i: nat, uniq: nat -> string)
    requires i <= |captures|
    requires UniqueAliases(t)
    ensures UniqueAliases(AddSymbols(t, captures, i, uniq))
    decreases |captures| - i
  {
    if i < |captures| {
      var m := captures[i];
      if HasSymbol(t, m) {
        AddSymbolsUnique(t, captures, i + 1, uniq);
      } else {
        AddSymbolsUnique(Put(t, NewAlias(t, m, uniq(i)), m), captures, i + 1, uniq);
      }
    }
  }

  /** Whatever the ids, `getNewUses` never binds one alias twice. */
  lemma NewUsesKeepAliasesUnique(t: Table, code: string, uniq: nat -> string)
    requires UniqueAliases(t)
    ensures UniqueAliases(GetNewUses(t, code, uniq))
  {
    AddSymbolsUnique(t, SymbolCaptures(code), 0, uniq);
  }

  lemma {:induction false} AddSymbolsKnown(t: Table, captures: seq<string>, i: nat, uniq: nat -> string)
    requires i <= |captures|
    requires forall k :: i <= k < |captures| ==> HasSymbol(t, captures[k])
    ensures AddSymbols(t, captures, i, uniq) == t
    decreases |captures| - i
  {
    if i < |captures| {
      AddSymbolsKnown(t, captures, i + 1, uniq);
    }
  }

  /** A class already imported is not imported again: when the table holds
      every class the code names, `getNewUses` returns it unchanged. */
  lemma NoNewUsesForKnownSymbols(t: Table, code: string, uniq: nat -> string)
    requires forall m :: m in SymbolCaptures(code) ==> HasSymbol(t, m)
    ensures GetNewUses(t, code, uniq) == t
  {
    AddSymbolsKnown(t, SymbolCaptures(code), 0, uniq);
  }

  // ----- the header rewrite -----

  /** The lines without `use `, in order. */
  function NonUseLines(lines: seq<string>): (r: seq<string>)
    ensures forall k :: 0 <= k < |r| ==> !IsUseLine(r[k])
    decreases |lines|
  {
    if |lines| == 0 then []
    else if IsUseLine(lines[0]) then NonUseLines(lines[1..])
    else [lines[0]] + NonUseLines(lines[1..])
  }

  /** The kept lines stay in order: the filter distributes over
      concatenation. */
  lemma {:induction false} NonUseLinesInOrder(a: seq<string>, b: seq<string>)
    ensures NonUseLines(a + b) == NonUseLines(a) + NonUseLines(b)
    ensures forall x :: (NonUseLines([x]) == if IsUseLine(x) then [] else [x])
    decreases |a|
  {
    if |a| == 0 {
      assert a + b == b;
    } else {
      assert (a + b)[1..] == a[1..] + b;
      NonUseLinesInOrder(a[1..], b);
    }
  }

  /** Every line without `use ` survives, and nothing else is added. */
  lemma {:induction false} NonUseLinesKeepsOthers(lines: seq<string>)
    ensures forall x :: !IsUseLine(x) ==> (x in NonUseLines(lines) <==> x in lines)
    ensures |NonUseLines(lines)| <= |lines|
    decreases |lines|
  {
    if |lines| > 0 {
      NonUseLinesKeepsOthers(lines[1..]);
      assert forall x :: x in lines <==> x == lines[0] || x in lines[1..];
    }
  }

  lemma {:induction false} NonUseLinesKeepsClean(lines: seq<string>)
    requires forall k :: 0 <= k < |lines| ==> !IsUseLine(lines[k])
    ensures NonUseLines(lines) == lines
    decreases |lines|
  {
    if |lines| > 0 {
      NonUseLinesKeepsClean(lines[1..]);
      assert [lines[0]] + lines[1..] == lines;
    }
  }

  /** Once the block is placed, later `use` lines are dropped and the rest
      kept. */
  lemma {:induction false} RewriteAfterBlock(head: seq<string>, block: string)
    ensures RewriteLines(head, block, false) == NonUseLines(head)
    decreases |head|
  {
    if |head| > 0 {
      RewriteAfterBlock(head[1..], block);
    }
  }

  /** A header without `use` lines is left as it is, and no block is
      inserted. */
  lemma {:induction false} RewriteWithoutUseLines(head: seq<string>, block: string, pending: bool)
    requires forall k :: 0 <= k < |head| ==> !IsUseLine(head[k])
    ensures RewriteLines(head, block, pending) == head
    decreases |head|
  {
    if |head| > 0 {
      RewriteWithoutUseLines(head[1..], block, pending);
      assert [head[0]] + head[1..] == head;
    }
  }

  /** With the first `use` line at `k`: the lines before it, then the block,
      then the later lines without `use`. */
  lemma {:induction false} RewriteShape(head: seq<string>, block: string, k: nat)
    requires k < |head| && IsUseLine(head[k])
    requires forall j :: 0 <= j < k ==> !IsUseLine(head[j])
    ensures RewriteLines(head, block, true) == head[..k] + [block] + NonUseLines(head[k + 1..])
    decreases k
  {
    if k == 0 {
      RewriteAfterBlock(head[1..], block);
    } else {
      RewriteShape(head[1..], block, k - 1);
      assert head[1..][k - 1 + 1..] == head[k + 1..];
      assert [head[0]] + head[1..][..k - 1] == head[..k];
    }
  }

  /** Rewriting a rewritten header with the same block changes nothing. */
  lemma RewriteIdempotent(head: seq<string>, block: string)
    ensures RewriteLines(RewriteLines(head, block, true), block, true) == RewriteLines(head, block, true)
  {
    if k :| 0 <= k < |head| && IsUseLine(head[k]) {
      var first := FirstUseLine(head, k);
      RewriteShape(head, block, first);
      var rest := NonUseLines(head[first + 1..]);
      var once := head[..first] + [block] + rest;
      if IsUseLine(block) {
        assert once[first] == block;
        assert once[..first] == head[..first];
        assert once[first + 1..] == rest;
        RewriteShape(once, block, first);
        NonUseLinesKeepsClean(rest);
      } else {
        forall j | 0 <= j < |once|
          ensures !IsUseLine(once[j])
        {
          if j > first {
            assert once[j] == rest[j - first - 1];
          }
        }
        RewriteWithoutUseLines(once, block, true);
      }
    } else {
      RewriteWithoutUseLines(head, block, true);
    }
  }

  /** The first `use` line, when line `k` is one. */
  lemma {:induction false} FirstUseLine(head: seq<string>, k: nat) returns (first: nat)
    requires k < |head| && IsUseLine(head[k])
    ensures first <= k && IsUseLine(head[first])
    ensures forall j :: 0 <= j < first ==> !IsUseLine(head[j])
    decreases k
  {
    if k == 0 || forall j :: 0 <= j < k ==> !IsUseLine(head[j]) {
      first := k;
    } else {
      var j :| 0 <= j < k && IsUseLine(head[j]);
      first := FirstUseLine(head, j);
    }
  }

  // ----- aliasing the generated code -----

  /** A name whose backslashed form occurs in a text occurs in it. */
  lemma BackslashedOccurs(s: string, symbol: string)
    requires Contains(s, "\\" + symbol)
    ensures Contains(s, symbol)
  {
    assert ("\\" + symbol)[1..] == symbol;
    ContainsEndOf(s, "\\" + symbol, symbol);
  }

  /** A body that names none of the table's classes is left unchanged. */
  lemma {:induction false} AliasingWithoutReferences(t: Table, body: string)
    requires forall k :: 0 <= k < |t| ==> !Contains(body, t[k].symbol)
    ensures AliasingUse(t, body) == body
    decreases |t|
  {
    if |t| > 0 {
      if Contains(body, "\\" + t[0].symbol) {
        BackslashedOccurs(body, t[0].symbol);
      }
      ReplaceAbsent(body, "\\" + t[0].symbol, t[0].alias);
      ReplaceAbsent(body, t[0].symbol, t[0].alias);
      AliasingWithoutReferences(t[1..], body);
    }
  }

  /** `aliasingUse` works through the table in order: aliasing with two
      tables in a row is aliasing with the first and then the second. */
  lemma {:induction false} AliasingUseAppend(t1: Table, t2: Table, body: string)
    ensures AliasingUse(t1 + t2, body) == AliasingUse(t2, AliasingUse(t1, body))
    decreases |t1|
  {
    if |t1| == 0 {
      assert t1 + t2 == t2;
    } else {
      var once := ReplaceAll(ReplaceAll(body, "\\" + t1[0].symbol, t1[0].alias), t1[0].symbol, t1[0].alias);
      assert (t1 + t2)[0] == t1[0];
      assert (t1 + t2)[1..] == t1[1..] + t2;
      AliasingUseAppend(t1[1..], t2, once);
    }
  }

  /** A fully qualified reference `\S` after text without a backslash
      becomes the alias, when the class name occurs nowhere else. */
  lemma AliasingRewritesReference(alias: string, symbol: string, head: string, tail: string)
    requires |symbol| > 0
    requires '\\' !in head
    requires !Contains(head + alias + tail, symbol)
    ensures AliasingUse([Use(alias, symbol)], head + "\\" + symbol + tail) == head + alias + tail
  {
    var pat := "\\" + symbol;
    QualifiedReferenceReplaced(alias, symbol, head, tail);
    ReplaceAbsent(head + alias + tail, symbol, alias);
    AliasingSingle(Use(alias, symbol), head + pat + tail);
  }

  /** The first replacement of `aliasingUse`: the `\S` in the body. */
  lemma QualifiedReferenceReplaced(alias: string, symbol: string, head: string, tail: string)
    requires |symbol| > 0
    requires '\\' !in head
    requires !Contains(head + alias + tail, symbol)
    ensures ReplaceAll(head + "\\" + symbol + tail, "\\" + symbol, alias) == head + alias + tail
  {
    var pat := "\\" + symbol;
    TailHasNoReference(symbol, head + alias, tail);
    assert pat[0] == '\\';
    assert head + "\\" + symbol + tail == head + pat + tail;
    calc {
      ReplaceAll(head + pat + tail, pat, alias);
      { assert head + pat + tail == head + (pat + tail); }
      ReplaceAll(head + (pat + tail), pat, alias);
      { ReplaceAfterPrefix(head, pat + tail, pat, alias); }
      head + ReplaceAll(pat + tail, pat, alias);
      { ReplaceLeading(pat, tail, alias); }
      head + (alias + ReplaceAll(tail, pat, alias));
      { ReplaceAbsent(tail, pat, alias); }
      head + (alias + tail);
      { assert head + (alias + tail) == head + alias + tail; }
      head + alias + tail;
    }
  }

  /** A tail of a text that never names `S` has no `\S`. */
  lemma TailHasNoReference(symbol: string, front: string, tail: string)
    requires !Contains(front + tail, symbol)
    ensures !Contains(tail, "\\" + symbol)
  {
    assert (front + tail)[|front|..] == tail;
    if Contains(tail, symbol) {
      ContainsInSuffix(front + tail, |front|, symbol);
    }
    if Contains(tail, "\\" + symbol) {
      BackslashedOccurs(tail, symbol);
    }
  }

  /** A one-entry table performs its two replacements. */
  lemma AliasingSingle(u: Use, body: string)
    ensures AliasingUse([u], body) == ReplaceAll(ReplaceAll(body, "\\" + u.symbol, u.alias), u.symbol, u.alias)
  {
    assert [u][1..] == [];
  }

  /** The entry `Collection => Vendor\Collections\Collection` turns
      `new \Vendor\Collections\Collection()` into `new Collection()`. */
  lemma AliasingExample()
    ensures var symbol := "Vendor\\Collections\\Collection";
            AliasingUse([Use("Collection", symbol)], "new " + "\\" + symbol + "()") == "new " + "Collection" + "()"
  {
    var symbol := "Vendor\\Collections\\Collection";
    ShorterNotContained("new " + "Collection" + "()", symbol);
    AliasingRewritesReference("Collection", symbol, "new ", "()");
  }
}
